=== FILE: README.md ===
# VirtoCommerce export, coupon search and lookup helpers in Dafny

This project models five pieces of the VirtoCommerce platform modules and
proves properties about them:

- **The full pricing export paged data source.** It serves one paged
  stream out of three sub-sources: pricelists, pricelist assignments and
  prices.
  - Setting the export query rebuilds one state per sub-source in that
    fixed order and counts each one eagerly.
  - `GetTotalCount` recounts and returns the sum.
  - `FetchNextPage` gives every sub-source that is still live (its last
    page was smaller than its total) a skip of page × page size and a
    take. The take is a whole page for the first live sub-source and
    `GetNextTake` of the previous live sub-source for the later ones.
  - It then concatenates the results in sub-source order, records each
    result's size as that sub-source's received count, and moves the
    page cursor on.
  - Sub-sources are parameters: a count function and a page function of
    the sub-source kind and the query.
  - The concurrent tasks of the original are modelled one after the
    other. Each task writes only its own sub-source's state, so the order
    does not matter.
- **The coupon search.**
  - The null-criteria check.
  - The normalisation of the sort: a missing, empty or usage-count sort
    becomes "code descending", and when the resulting sort has fewer than
    two entries "id ascending" is appended as a tie-breaker.
  - The filter: promotion id, code, and membership in a list of codes,
    each applied only when it is given.
  - The total count.
  - The id page, and the reordering of the loaded coupons by the position
    of their id in that page.
- **The inventory address.** Its one-line display form (the non-blank
  slots joined with ", ") and its member-wise copy.
- **The localization lookup.** Finds the first item whose language code
  is the requested language, where a null or empty language means
  "default".
- **The export provider factory.** Probes the registered factories in
  order, each with an empty configuration, until one builds a provider
  whose type name matches; that factory then builds the provider from the
  caller's configuration.

Exceptions of the original are modelled as `Err` values of a `Result`
(`NullReference`, `ArgumentNull`). Null values are modelled as `None` of
an `Option`. Collaborators the code calls but does not define are
function parameters:

- the sub-sources;
- the case-insensitive `EqualsInvariant` comparison;
- the `OrderBySortInfos` query extension;
- the coupon service's `GetByIds`;
- the provider factories and a provider's `TypeName`.

A consequence of `GetNextTake` worth spelling out: it returns the whole
page size whenever `pageSize - TotalCount - ReceivedCount` is negative, so
a page can hold more than `PageSize` items. With sub-sources holding 120,
30 and 5 items and the default page size of 50, the first page asks the
pricelists for 50, the assignments for 50 and the prices for
50 − 30 − 0 = 20, and so holds 50 + 30 + 5 = 85 items
(`FirstSamplePageHoldsEightyFiveItems`).

The same rule can also lose items for good. With 25 prices instead of
5, the total is 175 and the first page still asks the prices for only
50 − 30 − 0 = 20, so it delivers prices 1 to 20
(`FirstPageGivesTwentyPrices`). Every later page asks the prices to skip
`CurrentPageNumber × PageSize`, which is at least 50 and past all 25
prices, so no later page delivers a price (`LaterPagesYieldNoPrices`).
Prices 21 to 25 are counted in `TotalCount` but are never exported.

## Model

| member | source | states |
|---|---|---|
| PricingExport.NextTake | Modules/vc-module-pricing/VirtoCommerce.PricingModule.Data/ExportImport2/PricingFullExportPagedDataSource.cs:23-26 | the next take is the whole page size when page size minus total minus received count is negative and otherwise that difference; with non-negative counts it lies between 0 and the page size |
| PricingExport.Create | Modules/vc-module-pricing/VirtoCommerce.PricingModule.Data/ExportImport2/PricingFullExportPagedDataSource.cs:29-31 | a new aggregator has page size 50, page cursor 0, total count 0, no query and no sub-source states |
| PricingExport.BuildExportDataQuery | Modules/vc-module-pricing/VirtoCommerce.PricingModule.Data/ExportImport2/PricingFullExportPagedDataSource.cs:120-128 | each sub-source query carries the caller's skip, take, object ids and sort |
| PricingExport.CountStates | Modules/vc-module-pricing/VirtoCommerce.PricingModule.Data/ExportImport2/PricingFullExportPagedDataSource.cs:107-113 | every sub-source state gets skip 0 and take 0 and the sub-source's count under that query as its total, and nothing else about it changes |
| PricingExport.CalculateCounts | Modules/vc-module-pricing/VirtoCommerce.PricingModule.Data/ExportImport2/PricingFullExportPagedDataSource.cs:104-119 | every state is counted and the aggregate total is the sum of the per-sub-source totals; page size, cursor and query are untouched |
| PricingExport.SetDataQuery | Modules/vc-module-pricing/VirtoCommerce.PricingModule.Data/ExportImport2/PricingFullExportPagedDataSource.cs:38-54 | a null query fails with a null dereference and only then; otherwise the cursor is 0, there are three states in pricelist, assignment, price order with count-only copies of the query, received count 0 and empty results, and the total is the sum of the three sub-source counts |
| PricingExport.GetTotalCount | Modules/vc-module-pricing/VirtoCommerce.PricingModule.Data/ExportImport2/PricingFullExportPagedDataSource.cs:67-71 | fails exactly when no query was ever set; otherwise recounts every state and returns the new total, which equals the sum of the totals; page size, cursor and query are untouched |
| PricingExport.RecountChangesNothing | Modules/vc-module-pricing/VirtoCommerce.PricingModule.Data/ExportImport2/PricingFullExportPagedDataSource.cs:104-119 | recounting states whose counts are current leaves the aggregator unchanged and returns its total |
| PricingExport.GetTotalCountIdempotent | Modules/vc-module-pricing/VirtoCommerce.PricingModule.Data/ExportImport2/PricingFullExportPagedDataSource.cs:67-71 | asking for the total a second time changes nothing and returns the same number |
| PricingExport.SetThenGetTotalCount | Modules/vc-module-pricing/VirtoCommerce.PricingModule.Data/ExportImport2/PricingFullExportPagedDataSource.cs:42-52 | right after a query is set, asking for the total leaves the aggregator as it is and returns the sum of the three sub-sources' counts under the count-only query |
| PricingExport.LastLiveBefore | Modules/vc-module-pricing/VirtoCommerce.PricingModule.Data/ExportImport2/PricingFullExportPagedDataSource.cs:78-87 | finds the nearest live sub-source before a position, or none when all earlier ones are exhausted |
| PricingExport.Allocate | Modules/vc-module-pricing/VirtoCommerce.PricingModule.Data/ExportImport2/PricingFullExportPagedDataSource.cs:78-88 | the fetch loop gives each live state the current take and the page skip and fetches its page; a state that is not live keeps its query and gets an empty result |
| PricingExport.FetchNextPage | Modules/vc-module-pricing/VirtoCommerce.PricingModule.Data/ExportImport2/PricingFullExportPagedDataSource.cs:73-101 | fails exactly when no query was set; otherwise advances the cursor by one, keeps page size, total and query, advances every state with its allocated take and the skip cursor × page size, sets each received count to its result's size, and returns the concatenation of the results |
| PricingExport.PageIsConcatenationInOrder | Modules/vc-module-pricing/VirtoCommerce.PricingModule.Data/ExportImport2/PricingFullExportPagedDataSource.cs:91-97 | a page is the earlier sub-sources' items, then one sub-source's whole result, then the later ones', and its length is the sum of the result sizes |
| PricingExport.TakeAtChoice | Modules/vc-module-pricing/VirtoCommerce.PricingModule.Data/ExportImport2/PricingFullExportPagedDataSource.cs:81-86 | the running take at a position is the page size when no earlier sub-source is live, and otherwise the next take of the nearest earlier live one |
| PricingExport.TakeAllocation | Modules/vc-module-pricing/VirtoCommerce.PricingModule.Data/ExportImport2/PricingFullExportPagedDataSource.cs:75-86 | a fetched sub-source's skip is cursor × page size; its take is the page size when no earlier sub-source is live, and otherwise the next take of the nearest earlier live one |
| PricingExport.FullSourceLeavesFullTake | Modules/vc-module-pricing/VirtoCommerce.PricingModule.Data/ExportImport2/PricingFullExportPagedDataSource.cs:83-86 | when a live sub-source's total plus received count exceeds the page size, the next live sub-source is asked for a whole page as well |
| PricingExport.SkippedStateContributesNothing | Modules/vc-module-pricing/VirtoCommerce.PricingModule.Data/ExportImport2/PricingFullExportPagedDataSource.cs:80-81 | a sub-source that is not live keeps its query, adds nothing to the page and ends with received count 0 |
| PricingExport.ExhaustedSourceRejoins | Modules/vc-module-pricing/VirtoCommerce.PricingModule.Data/ExportImport2/PricingFullExportPagedDataSource.cs:80-96 | because skipping resets the received count to 0, an exhausted sub-source with a positive total is live again on the next page |
| PricingExport.AfterPages | Modules/vc-module-pricing/VirtoCommerce.PricingModule.Data/ExportImport2/PricingFullExportPagedDataSource.cs:98 | after n pages the cursor has moved by n, and page size, total and every state's kind and total are unchanged |
| PricingExport.EmptySourceNeverFetched | Modules/vc-module-pricing/VirtoCommerce.PricingModule.Data/ExportImport2/PricingFullExportPagedDataSource.cs:78-97 | a sub-source with no items keeps its count-only query and contributes nothing on any page |
| PricingExport.TakeAtBounded | Modules/vc-module-pricing/VirtoCommerce.PricingModule.Data/ExportImport2/PricingFullExportPagedDataSource.cs:75-86 | with non-negative counts, every allocated take lies between 0 and the page size |
| PricingExport.FetchKeepsBoundedCounts | Modules/vc-module-pricing/VirtoCommerce.PricingModule.Data/ExportImport2/PricingFullExportPagedDataSource.cs:93-97 | when sub-sources return no more than they are asked for, a fetch keeps every received count between 0 and the page size |
| PricingExport.AfterPagesBounded | Modules/vc-module-pricing/VirtoCommerce.PricingModule.Data/ExportImport2/PricingFullExportPagedDataSource.cs:73-101 | the bound on received counts holds after any number of pages |
| PricingExport.LargeSourceAlwaysLive | Modules/vc-module-pricing/VirtoCommerce.PricingModule.Data/ExportImport2/PricingFullExportPagedDataSource.cs:81-96 | a sub-source holding more items than a page never counts as exhausted, so it is fetched from on every page |
| PricingExport.SetDataQueryBoundsCounts | Modules/vc-module-pricing/VirtoCommerce.PricingModule.Data/ExportImport2/PricingFullExportPagedDataSource.cs:42-52 | after a query is set, all counts satisfy the bounds the paging lemmas need |
| PricingExport.FirstSamplePageHoldsEightyFiveItems | Modules/vc-module-pricing/VirtoCommerce.PricingModule.Data/ExportImport2/PricingFullExportPagedDataSource.cs:73-101 | with 120, 30 and 5 items and page size 50, the total is 155, the takes are 50, 50 and 20, and the first page holds 85 items |
| PricingExport.FirstPageGivesTwentyPrices | Modules/vc-module-pricing/VirtoCommerce.PricingModule.Data/ExportImport2/PricingFullExportPagedDataSource.cs:73-101 | with 120, 30 and 25 items and page size 50, the total is 175, but the first page asks the prices for 20 and delivers exactly the first 20 of them |
| PricingExport.LaterPagesYieldNoPrices | Modules/vc-module-pricing/VirtoCommerce.PricingModule.Data/ExportImport2/PricingFullExportPagedDataSource.cs:81-86 | with 25 prices and page size 50, every page after the first skips past all the prices and delivers none of them |
| CouponSearch.BuildSortInfos | Modules/vc-module-marketing/VirtoCommerce.MarketingModule.Data/Search/CouponSearchService.cs:89-115 | a missing, empty or usage-count sort becomes code descending then id ascending; a one-entry sort gets id ascending appended; a longer sort is kept; the result always has at least two entries |
| CouponSearch.BuildSortInfosDropsTotalUses | Modules/vc-module-marketing/VirtoCommerce.MarketingModule.Data/Search/CouponSearchService.cs:93-114 | the normalised sort never sorts by the usage count |
| CouponSearch.BuildSortInfosIdempotent | Modules/vc-module-marketing/VirtoCommerce.MarketingModule.Data/Search/CouponSearchService.cs:89-115 | normalising a normalised sort leaves it unchanged |
| CouponSearch.MatchingCoupons | Modules/vc-module-marketing/VirtoCommerce.MarketingModule.Data/Search/CouponSearchService.cs:69-82 | the reference filter keeps exactly the coupons meeting every given criterion |
| CouponSearch.FilterCoupons | Modules/vc-module-marketing/VirtoCommerce.MarketingModule.Data/Search/CouponSearchService.cs:67-82 | the conditional `Where` chain keeps only table coupons meeting every given criterion, and keeps every table coupon that meets them |
| CouponSearch.FilterIsConjunction | Modules/vc-module-marketing/VirtoCommerce.MarketingModule.Data/Search/CouponSearchService.cs:67-82 | the chain of conditional filters equals the reference filter, in table order |
| CouponSearch.FoundIffMatches | Modules/vc-module-marketing/VirtoCommerce.MarketingModule.Data/Search/CouponSearchService.cs:67-82 | a coupon is found if and only if it is in the table and meets every given criterion |
| CouponSearch.PageIds | Modules/vc-module-marketing/VirtoCommerce.MarketingModule.Data/Search/CouponSearchService.cs:56 | the page ids are the ids of the skip/take window of the sorted coupons, in order, with a negative skip or take clamped to 0 |
| CouponSearch.IndexOf | Modules/vc-module-marketing/VirtoCommerce.MarketingModule.Data/Search/CouponSearchService.cs:57 | the position of an id's first occurrence, or -1 exactly when the id is absent |
| CouponSearch.OrderByPosition | Modules/vc-module-marketing/VirtoCommerce.MarketingModule.Data/Search/CouponSearchService.cs:57 | the reordered results are a permutation of the loaded coupons, sorted by the position of their id in the page ids |
| CouponSearch.SearchCoupons | Modules/vc-module-marketing/VirtoCommerce.MarketingModule.Data/Search/CouponSearchService.cs:33-63 | null criteria fail with an argument-null error and only then; the total is the number of matching coupons; the results are empty for a take of 0 or less, and otherwise a permutation of the coupons loaded for the page ids, ordered by id position |
| Inventory.IsBlank | Modules/vc-module-inventory/VirtoCommerce.InventoryModule.Core/Model/Address.cs:35 | `string.IsNullOrWhiteSpace`: null and the empty string are blank, a blank string has only white space, and a string with any other character is not blank |
| Inventory.Coalesce | Modules/vc-module-inventory/VirtoCommerce.InventoryModule.Core/Model/Address.cs:35 | the `??` operator: the first value unless it is null, then the second |
| Inventory.Join | Modules/vc-module-inventory/VirtoCommerce.InventoryModule.Core/Model/Address.cs:35 | `string.Join`: no parts give the empty string; otherwise the result starts with the first part, ends with the last, the separator follows the first part when there are at least two, and its length is the parts' total length plus one separator per pair of neighbours |
| Inventory.JoinAppend | Modules/vc-module-inventory/VirtoCommerce.InventoryModule.Core/Model/Address.cs:35 | joining two non-empty runs of parts is joining each run with exactly one separator between the two results, so every part and separator appears in order |
| Inventory.ToString | Modules/vc-module-inventory/VirtoCommerce.InventoryModule.Core/Model/Address.cs:35 | the display form is empty exactly when all seven display slots are blank; otherwise its length is the kept parts' total length plus one ", " between each pair |
| Inventory.Present | Modules/vc-module-inventory/VirtoCommerce.InventoryModule.Core/Model/Address.cs:35 | the kept parts are non-blank slot values, and every non-blank slot value is kept |
| Inventory.PresentAppend | Modules/vc-module-inventory/VirtoCommerce.InventoryModule.Core/Model/Address.cs:35 | dropping blank slots distributes over concatenation, so slot order is kept |
| Inventory.DisplayParts | Modules/vc-module-inventory/VirtoCommerce.InventoryModule.Core/Model/Address.cs:35 | the display parts are first name, last name, line 1, city, region name, postal code or else zip, and country name, in that order, each one only when not blank |
| Inventory.AllBlankDisplaysEmpty | Modules/vc-module-inventory/VirtoCommerce.InventoryModule.Core/Model/Address.cs:35 | an address whose display slots are all null or white space displays as the empty string |
| Inventory.DisplayInSlotOrder | Modules/vc-module-inventory/VirtoCommerce.InventoryModule.Core/Model/Address.cs:35 | the display form joins, with ", ", the non-blank values of first name, last name, line 1, city, region name, postal code or else zip, and country name, in that order |
| Inventory.TwoSlotsDisplayInOrder | Modules/vc-module-inventory/VirtoCommerce.InventoryModule.Core/Model/Address.cs:35 | with exactly two non-blank slots the display is the earlier slot's value, then ", ", then the later slot's value |
| Inventory.SingleSlotDisplaysAlone | Modules/vc-module-inventory/VirtoCommerce.InventoryModule.Core/Model/Address.cs:35 | with exactly one non-blank slot the display is that value, with no separator |
| Inventory.AtMostSevenParts | Modules/vc-module-inventory/VirtoCommerce.InventoryModule.Core/Model/Address.cs:35 | the display has at most seven parts |
| Inventory.DisplayIgnoresOtherFields | Modules/vc-module-inventory/VirtoCommerce.InventoryModule.Core/Model/Address.cs:35 | addresses agreeing on the seven display fields and the zip display the same, whatever their other fields |
| Inventory.PostalCodeHidesZip | Modules/vc-module-inventory/VirtoCommerce.InventoryModule.Core/Model/Address.cs:35 | a non-null postal code makes the zip irrelevant; with a null postal code the zip shows in its place |
| Inventory.EmptyPostalCodeDropsZip | Modules/vc-module-inventory/VirtoCommerce.InventoryModule.Core/Model/Address.cs:35 | an empty but non-null postal code hides a filled-in zip |
| Inventory.Clone | Modules/vc-module-inventory/VirtoCommerce.InventoryModule.Core/Model/Address.cs:28-31 | the copy equals the original in every property and so displays the same |
| Localization.EffectiveLanguage | Modules/VirtoCommerce.NotificationsModule/VirtoCommerce.NotificationsModule.Core/Extensions/LocalizationExtensions.cs:13 | a null or empty language becomes "default" and any other language is kept; the result is never empty |
| Localization.FindFrom | Modules/VirtoCommerce.NotificationsModule/VirtoCommerce.NotificationsModule.Core/Extensions/LocalizationExtensions.cs:15 | from a position on: nothing is found exactly when every item has a code in another language; a found item is the first one in the language; a null dereference happens exactly when an item with a null code comes before any match |
| Localization.FindWithLanguage | Modules/VirtoCommerce.NotificationsModule/VirtoCommerce.NotificationsModule.Core/Extensions/LocalizationExtensions.cs:11-18 | the same three outcomes over the whole sequence, for the effective language |
| Localization.DefaultLanguageAliases | Modules/VirtoCommerce.NotificationsModule/VirtoCommerce.NotificationsModule.Core/Extensions/LocalizationExtensions.cs:13 | a null language, an empty language and "default" find the same item |
| Localization.FirstMatchIsFound | Modules/VirtoCommerce.NotificationsModule/VirtoCommerce.NotificationsModule.Core/Extensions/LocalizationExtensions.cs:15 | an item in the language preceded only by items with codes in other languages is the one found |
| Localization.LaterItemsIgnored | Modules/VirtoCommerce.NotificationsModule/VirtoCommerce.NotificationsModule.Core/Extensions/LocalizationExtensions.cs:15 | appending items after a found item does not change the result |
| ExportProviders.FirstMatch | Modules/vc-module-export/VirtoCommerce.ExportModule.Data/Services/ExportProviderFactory.cs:22 | from a position on: none exactly when no factory's probe matches the name, and otherwise the first factory whose probe matches |
| ExportProviders.CreateProvider | Modules/vc-module-export/VirtoCommerce.ExportModule.Data/Services/ExportProviderFactory.cs:20-25 | null exactly when no factory's probe matches; otherwise the provider that the first matching factory builds from the caller's configuration |
| ExportProviders.ChoiceIgnoresConfiguration | Modules/vc-module-export/VirtoCommerce.ExportModule.Data/Services/ExportProviderFactory.cs:22-24 | which factory is chosen does not depend on the caller's configuration |
| ExportProviders.LaterFactoriesIgnored | Modules/vc-module-export/VirtoCommerce.ExportModule.Data/Services/ExportProviderFactory.cs:22-24 | factories registered after a match never matter; when there is no match, the lookup continues into the later factories |

## Left out

- FetchNextPage: `CurrentPageNumber * PageSize` and `CurrentPageNumber++` are unbounded integers here. The 32-bit wrap-around of the original, after about 2^31 / page size pages, is not modelled.
- CalculateCounts: the sum of the per-sub-source counts is unbounded here. The original's `Sum` over `int` is checked arithmetic and throws an overflow exception when the counts add up to more than 2^31 − 1; that error path is not modelled.
- NextTake: the subtraction is on unbounded integers, so 32-bit overflow with extreme counts is not modelled.
- The tasks and the `Task.WhenAll` barrier are modelled as a sequential loop. Each task touches only its own sub-source state, so the result is the same.
- A sub-source throwing, and the aggregated exception that follows, are not modelled: sub-sources are total functions.
- SetDataQuery: a null query throws after `_dataQuery`, the cursor and the total have already been reset. The model returns an error and discards that partial state.
- The `PageSize` setter is plain record update, and the sub-source factories' query subtypes are one query type.
- The result cache, its expiration tokens, the repository's lifetime and the asynchronous execution of the coupon search are left out. The database's collation, which may make string equality case-insensitive, is left out too; the filter compares strings exactly.
- SearchCoupons: a null promotion id, code or code list is represented by the empty value, because the code treats null and empty alike.
- A null `SortColumn` is not modelled.
- `BuildSortInfos` adds the tie-breaker to the caller's own list in place. That side effect on the criteria is not modelled.
- `OrderBySortInfos`, `EqualsInvariant` and the coupon service's `GetByIds` are parameters, so the model does not say how they sort, compare or load.
- The members of the `AddressType` enumeration, and the entity base class beyond the id, are not modelled.
- FindWithLanguage: a null item sequence and a null item are not modelled; a null language code is.
- CreateProvider: a null factory entry, a factory returning null for the probe, and a provider with a null type name are not modelled.

=== FILE: address.dfy ===
/** The inventory address record: its one-line display form and its copy. */
module Inventory {
  import opened Common

  /** The address kind; the enumeration's members are not part of this model. */
  datatype AddressType = AddressType(value: int)

  /** An address; every string property may be null. */
  datatype Address = Address(
    id: Option<string>,
    addressType: AddressType,
    name: Option<string>,
    organization: Option<string>,
    countryCode: Option<string>,
    countryName: Option<string>,
    city: Option<string>,
    postalCode: Option<string>,
    zip: Option<string>,
    line1: Option<string>,
    line2: Option<string>,
    regionId: Option<string>,
    regionName: Option<string>,
    firstName: Option<string>,
    middleName: Option<string>,
    lastName: Option<string>,
    phone: Option<string>,
    email: Option<string>)

  /** The separator between the parts of the display form. */
  const Separator: string := ", "

  /** `char.IsWhiteSpace`: the Unicode space, line and paragraph separators,
      the control characters U+0009 to U+000D, and U+0085. */
  predicate IsWhiteSpace(c: char)
  {
    || c == ' '
    || ('\t' <= c <= '\r')
    || c == '\U{85}'
    || c == '\U{A0}'
    || c == '\U{1680}'
    || ('\U{2000}' <= c <= '\U{200A}')
    || c == '\U{2028}'
    || c == '\U{2029}'
    || c == '\U{202F}'
    || c == '\U{205F}'
    || c == '\U{3000}'
  }

  /** `string.IsNullOrWhiteSpace`. */
  predicate IsBlank(s: Option<string>): (r: bool)
    ensures s.None? ==> r
    ensures s.Some? && s.value == "" ==> r
    ensures r && s.Some? ==> forall i :: 0 <= i < |s.value| ==> IsWhiteSpace(s.value[i])
    ensures !r ==> s.Some? && exists i :: 0 <= i < |s.value| && !IsWhiteSpace(s.value[i])
  {
    s.None? || forall i :: 0 <= i < |s.value| ==> IsWhiteSpace(s.value[i])
  }

  /** The `??` operator: the first value unless it is null. */
  function Coalesce(first: Option<string>, second: Option<string>): (r: Option<string>)
    ensures first.Some? ==> r == first
    ensures first.None? ==> r == second
  {
    if first.Some? then first else second
  }

  /** The display slots, in display order; the postal slot shows the postal
      code unless it is null, and the zip code otherwise. */
  function Slots(a: Address): (r: seq<Option<string>>)
    ensures |r| == 7
  {
    [a.firstName] + ([a.lastName] + ([a.line1] + ([a.city] + ([a.regionName]
      + ([Coalesce(a.postalCode, a.zip)] + [a.countryName])))))
  }

  /** The non-blank entries, unwrapped, in their original order. */
  function Present(slots: seq<Option<string>>): (r: seq<string>)
    ensures |r| <= |slots|
    ensures forall i :: 0 <= i < |r| ==> !IsBlank(Some(r[i])) && Some(r[i]) in slots
    ensures forall i :: 0 <= i < |slots| && !IsBlank(slots[i]) ==> slots[i].value in r
  {
    if slots == [] then []
    else if IsBlank(slots[0]) then Present(slots[1..])
    else [slots[0].value] + Present(slots[1..])
  }

  /** The total length of the parts. */
  function SumLengths(parts: seq<string>): (r: nat)
  {
    if parts == [] then 0 else |parts[0]| + SumLengths(parts[1..])
  }

  /** `string.Join`: the parts with the separator between neighbours. The
      result starts with the first part and ends with the last, and holds
      every part's characters plus one separator per pair of neighbours. */
  function Join(separator: string, parts: seq<string>): (r: string)
    ensures parts == [] ==> r == ""
    ensures parts != [] ==> |parts[0]| <= |r| && r[..|parts[0]|] == parts[0]
    ensures parts != [] ==> |parts[|parts| - 1]| <= |r| && r[|r| - |parts[|parts| - 1]|..] == parts[|parts| - 1]
    ensures parts != [] ==> |r| == SumLengths(parts) + (|parts| - 1) * |separator|
    ensures |parts| >= 2 ==> r[|parts[0]|..|parts[0]| + |separator|] == separator
  {
    if parts == [] then ""
    else if |parts| == 1 then parts[0]
    else
      var tail := parts[1..];
      var rest := Join(separator, tail);
      var r := parts[0] + separator + rest;
      var last := tail[|tail| - 1];
      assert last == parts[|parts| - 1];
      JoinedPieces(parts[0], separator, rest, |last|);
      OneMoreSeparator(|tail|, |separator|);
      r
  }

  /** Where the pieces of `part + separator + rest` sit. */
  lemma JoinedPieces(part: string, separator: string, rest: string, k: nat)
    requires k <= |rest|
    ensures var r := part + separator + rest;
      && r[..|part|] == part
      && r[|part|..|part| + |separator|] == separator
      && r[|r| - k..] == rest[|rest| - k..]
  {
  }

  lemma OneMoreSeparator(n: int, width: nat)
    ensures n * width == (n - 1) * width + width
  {
  }

  /** Joining a part in front of a non-empty run puts one separator after it. */
  lemma JoinCons(separator: string, part: string, rest: seq<string>)
    requires rest != []
    ensures Join(separator, [part] + rest) == part + separator + Join(separator, rest)
  {
    assert ([part] + rest)[1..] == rest;
  }

  lemma Regroup(c: string, a: string, s: string, b: string)
    ensures c + (a + s + b) == (c + a) + s + b
  {
  }

  /** Joining two non-empty runs of parts is joining each run and putting
      one separator between the results. */
  lemma {:induction false} JoinAppend(separator: string, xs: seq<string>, ys: seq<string>)
    requires xs != [] && ys != []
    ensures Join(separator, xs + ys) == Join(separator, xs) + separator + Join(separator, ys)
  {
    assert xs + ys == [xs[0]] + (xs[1..] + ys);
    JoinCons(separator, xs[0], xs[1..] + ys);
    if |xs| == 1 {
      assert xs[1..] + ys == ys;
    } else {
      assert xs == [xs[0]] + xs[1..];
      JoinCons(separator, xs[0], xs[1..]);
      JoinAppend(separator, xs[1..], ys);
      Regroup(xs[0] + separator, Join(separator, xs[1..]), separator, Join(separator, ys));
    }
  }

  /** The display form: the non-blank slots joined with ", ". It is empty
      exactly when every display slot is blank, and otherwise holds the
      kept slots' characters plus one separator between each pair. */
  function ToString(a: Address): (r: string)
    ensures r == "" <==> forall k :: 0 <= k < 7 ==> IsBlank(Slots(a)[k])
    ensures var parts := Present(Slots(a));
            parts != [] ==> |r| == SumLengths(parts) + (|parts| - 1) * |Separator|
  {
    var slots := Slots(a);
    var parts := Present(slots);
    assert (forall k :: 0 <= k < 7 ==> IsBlank(slots[k])) ==> parts == [] by {
      if forall k :: 0 <= k < 7 ==> IsBlank(slots[k]) {
        PresentAllBlank(slots);
      }
    }
    assert parts != [] ==> parts[0] != "";
    Join(Separator, parts)
  }

  /** A copy with every property equal to the original's. */
  function Clone(a: Address): (r: Address)
    ensures r == a
    ensures ToString(r) == ToString(a)
  {
    Address(a.id, a.addressType, a.name, a.organization, a.countryCode, a.countryName, a.city,
            a.postalCode, a.zip, a.line1, a.line2, a.regionId, a.regionName, a.firstName,
            a.middleName, a.lastName, a.phone, a.email)
  }

  // ---------------------------------------------------------------------------
  // Properties of the display form
  // ---------------------------------------------------------------------------

  /** Picking the non-blank entries distributes over concatenation, so the
      display keeps the slot order. */
  lemma {:induction false} PresentAppend(xs: seq<Option<string>>, ys: seq<Option<string>>)
    ensures Present(xs + ys) == Present(xs) + Present(ys)
  {
    if xs == [] {
      assert xs + ys == ys;
    } else {
      assert (xs + ys)[1..] == xs[1..] + ys;
      PresentAppend(xs[1..], ys);
    }
  }

  lemma PresentCons(slot: Option<string>, rest: seq<Option<string>>)
    ensures Present([slot] + rest) == PresentOne(slot) + Present(rest)
  {
    assert ([slot] + rest)[1..] == rest;
  }

  /** The display parts are exactly the non-blank slots, slot by slot, in
      display order. */
  lemma DisplayParts(a: Address)
    ensures Present(Slots(a)) ==
      PresentOne(a.firstName) + (PresentOne(a.lastName) + (PresentOne(a.line1) + (PresentOne(a.city)
      + (PresentOne(a.regionName) + (PresentOne(Coalesce(a.postalCode, a.zip)) + PresentOne(a.countryName))))))
  {
    var tail := [a.countryName];
    assert Present(tail) == PresentOne(a.countryName) by {
      PresentCons(a.countryName, []);
      assert [a.countryName] + [] == tail;
    }
    var postal := [Coalesce(a.postalCode, a.zip)] + tail;
    assert Present(postal) == PresentOne(Coalesce(a.postalCode, a.zip)) + Present(tail) by {
      PresentCons(Coalesce(a.postalCode, a.zip), tail);
    }
    var region := [a.regionName] + postal;
    assert Present(region) == PresentOne(a.regionName) + Present(postal) by {
      PresentCons(a.regionName, postal);
    }
    var city := [a.city] + region;
    assert Present(city) == PresentOne(a.city) + Present(region) by {
      PresentCons(a.city, region);
    }
    var line1 := [a.line1] + city;
    assert Present(line1) == PresentOne(a.line1) + Present(city) by {
      PresentCons(a.line1, city);
    }
    var lastName := [a.lastName] + line1;
    assert Present(lastName) == PresentOne(a.lastName) + Present(line1) by {
      PresentCons(a.lastName, line1);
    }
    assert Present(Slots(a)) == PresentOne(a.firstName) + Present(lastName) by {
      PresentCons(a.firstName, lastName);
    }
  }

  /** One slot's contribution: its value when it is not blank, nothing otherwise. */
  function PresentOne(slot: Option<string>): (r: seq<string>)
    ensures IsBlank(slot) ==> r == []
    ensures !IsBlank(slot) ==> r == [slot.value]
  {
    if IsBlank(slot) then [] else [slot.value]
  }

  /** Slots that are all blank leave no parts. */
  lemma {:induction false} PresentAllBlank(slots: seq<Option<string>>)
    requires forall j :: 0 <= j < |slots| ==> IsBlank(slots[j])
    ensures Present(slots) == []
  {
    if slots != [] {
      PresentAllBlank(slots[1..]);
    }
  }

  /** Slots of which only the one at position `k` is not blank leave exactly
      that slot's value. */
  lemma {:induction false} PresentSingle(slots: seq<Option<string>>, k: nat)
    requires k < |slots| && !IsBlank(slots[k])
    requires forall j :: 0 <= j < |slots| && j != k ==> IsBlank(slots[j])
    ensures Present(slots) == [slots[k].value]
  {
    if k == 0 {
      PresentAllBlank(slots[1..]);
    } else {
      PresentSingle(slots[1..], k - 1);
    }
  }

  /** An address whose seven display slots are all blank displays as the
      empty string. */
  lemma AllBlankDisplaysEmpty(a: Address)
    requires forall k :: 0 <= k < 7 ==> IsBlank(Slots(a)[k])
    ensures ToString(a) == ""
  {
    PresentAllBlank(Slots(a));
  }

  /** An address with exactly one non-blank display slot displays as that
      slot's value, with no separator. */
  lemma SingleSlotDisplaysAlone(a: Address, k: nat)
    requires k < 7 && !IsBlank(Slots(a)[k])
    requires forall j :: 0 <= j < 7 && j != k ==> IsBlank(Slots(a)[j])
    ensures ToString(a) == Slots(a)[k].value
  {
    PresentSingle(Slots(a), k);
  }

  /** The display form joins the kept slots with ", " in the fixed slot
      order: first name, last name, first line, city, region, postal code
      (or zip) and country. */
  lemma DisplayInSlotOrder(a: Address)
    ensures ToString(a) == Join(Separator,
      PresentOne(a.firstName) + (PresentOne(a.lastName) + (PresentOne(a.line1) + (PresentOne(a.city)
      + (PresentOne(a.regionName) + (PresentOne(Coalesce(a.postalCode, a.zip)) + PresentOne(a.countryName)))))))
  {
    DisplayParts(a);
  }

  /** Slots of which only the ones at positions `j < k` are not blank leave
      exactly those two values, in slot order. */
  lemma {:induction false} PresentPair(slots: seq<Option<string>>, j: nat, k: nat)
    requires j < k < |slots| && !IsBlank(slots[j]) && !IsBlank(slots[k])
    requires forall i :: 0 <= i < |slots| && i != j && i != k ==> IsBlank(slots[i])
    ensures Present(slots) == [slots[j].value, slots[k].value]
  {
    if j == 0 {
      PresentSingle(slots[1..], k - 1);
    } else {
      PresentPair(slots[1..], j - 1, k - 1);
    }
  }

  /** An address with exactly two non-blank display slots displays the
      earlier slot's value, then ", ", then the later one's. */
  lemma TwoSlotsDisplayInOrder(a: Address, j: nat, k: nat)
    requires j < k < 7 && !IsBlank(Slots(a)[j]) && !IsBlank(Slots(a)[k])
    requires forall i :: 0 <= i < 7 && i != j && i != k ==> IsBlank(Slots(a)[i])
    ensures ToString(a) == Slots(a)[j].value + Separator + Slots(a)[k].value
  {
    var x, y := Slots(a)[j].value, Slots(a)[k].value;
    PresentPair(Slots(a), j, k);
    assert [x, y] == [x] + [y];
    JoinCons(Separator, x, [y]);
  }

  /** The display form never has more than seven parts. */
  lemma AtMostSevenParts(a: Address)
    ensures |Present(Slots(a))| <= 7
  {
  }

  /** Only the seven display slots matter: name, organization, second line,
      region id, country code, middle name, phone, email, type and id do not
      affect the display form. */
  lemma DisplayIgnoresOtherFields(a: Address, b: Address)
    requires a.firstName == b.firstName && a.lastName == b.lastName && a.line1 == b.line1
    requires a.city == b.city && a.regionName == b.regionName && a.countryName == b.countryName
    requires a.postalCode == b.postalCode && a.zip == b.zip
    ensures ToString(a) == ToString(b)
  {
  }

  /** A non-null postal code fills the postal slot even when it is blank, so
      it hides the zip code entirely; a null postal code lets the zip code
      show in its place. */
  lemma PostalCodeHidesZip(a: Address, zip: Option<string>)
    ensures a.postalCode.Some? ==> ToString(a.(zip := zip)) == ToString(a)
    ensures a.postalCode.None? ==> ToString(a) == ToString(a.(postalCode := a.zip))
  {
  }

  /** A blank but non-null postal code drops the postal slot from the
      display even when the zip code is filled in. */
  lemma EmptyPostalCodeDropsZip(a: Address)
    requires a.postalCode == Some("")
    ensures ToString(a) == ToString(a.(zip := None))
  {
    PostalCodeHidesZip(a, None);
  }
}

=== FILE: common.dfy ===
/** Shared vocabulary: null-able values, the exceptions the modelled code can
    raise, and the LINQ `Skip`/`Take` window. */
module Common {

  /** A reference that may be null. */
  datatype Option<+T> = None | Some(value: T)

  /** The runtime exceptions the modelled members can raise. */
  datatype Error =
    | NullReference
    | ArgumentNull(paramName: string)

  /** Either a value or the exception that interrupted the computation. */
  datatype Result<+T> = Ok(value: T) | Err(error: Error)

  function Min(a: int, b: int): (r: int) { if a <= b then a else b }

  function Max(a: int, b: int): (r: int) { if a <= b then b else a }

  /** LINQ `Skip(skip).Take(take)`: a negative skip skips nothing, a take of
      zero or less yields nothing, and the window is cut off at the end. */
  function Window<T>(xs: seq<T>, skip: int, take: int): (r: seq<T>)
    ensures |r| == Min(Max(take, 0), Max(|xs| - Max(skip, 0), 0))
    ensures forall i :: 0 <= i < |r| ==> Max(skip, 0) + i < |xs| && r[i] == xs[Max(skip, 0) + i]
  {
    var from := Min(Max(skip, 0), |xs|);
    var to := from + Min(Max(take, 0), |xs| - from);
    xs[from..to]
  }
}

=== FILE: coupon_search.dfy ===
/** Coupon search: sort-order normalisation, the conjunctive filter, and the
    paging and reordering of one search.  The coupon table, the sort-order
    translation of the query, the case-insensitive column-name comparison and
    the loading of coupons by id are outside this model and are passed in as
    plain values and functions. */
module CouponSearch {
  import opened Common

  datatype SortDirection = Ascending | Descending

  datatype SortInfo = SortInfo(sortColumn: string, sortDirection: SortDirection)

  /** Column names, as the coupon model's property names spell them. */
  const TotalUsesCountColumn: string := "TotalUsesCount"
  const CodeColumn: string := "Code"
  const IdColumn: string := "Id"

  /** The sort a search falls back to, and the tie-breaker added to short sorts. */
  const CodeDescending: SortInfo := SortInfo(CodeColumn, Descending)
  const IdAscending: SortInfo := SortInfo(IdColumn, Ascending)

  /** A stored coupon, reduced to the columns the search reads. */
  datatype Coupon = Coupon(id: string, promotionId: string, code: string)

  /** Search criteria.  A null or empty string is `""` and a null or empty
      code list is `[]`: the search treats them alike.  A null sort list is
      `None`. */
  datatype CouponSearchCriteria = CouponSearchCriteria(
    promotionId: string,
    code: string,
    codes: seq<string>,
    sortInfos: Option<seq<SortInfo>>,
    skip: int,
    take: int)

  datatype CouponSearchResult = CouponSearchResult(totalCount: int, results: seq<Coupon>)

  // ---------------------------------------------------------------------------
  // Sort normalisation
  // ---------------------------------------------------------------------------

  /** Some entry sorts by the usage count, which cannot be sorted on. */
  predicate SortsByTotalUses(sortInfos: seq<SortInfo>, equalsInvariant: (string, string) -> bool)
  {
    exists i :: 0 <= i < |sortInfos| && equalsInvariant(sortInfos[i].sortColumn, TotalUsesCountColumn)
  }

  /** The sort actually applied: a missing, empty or usage-count sort becomes
      "code, descending"; a sort of fewer than two entries gets "id,
      ascending" appended as a tie-breaker. */
  function BuildSortInfos(sortInfos: Option<seq<SortInfo>>, equalsInvariant: (string, string) -> bool): (r: seq<SortInfo>)
    ensures 2 <= |r|
    ensures (sortInfos.None? || sortInfos.value == [] || SortsByTotalUses(sortInfos.value, equalsInvariant))
            ==> r == [CodeDescending, IdAscending]
    ensures sortInfos.Some? && 2 <= |sortInfos.value| && !SortsByTotalUses(sortInfos.value, equalsInvariant)
            ==> r == sortInfos.value
    ensures sortInfos.Some? && |sortInfos.value| == 1 && !SortsByTotalUses(sortInfos.value, equalsInvariant)
            ==> r == sortInfos.value + [IdAscending]
  {
    var chosen :=
      if sortInfos.None? || sortInfos.value == [] || SortsByTotalUses(sortInfos.value, equalsInvariant)
      then [CodeDescending]
      else sortInfos.value;
    if |chosen| < 2 then chosen + [IdAscending] else chosen
  }

  /** As long as the code and id column names are not taken for the usage
      count column, the normalised sort never sorts by the usage count. */
  lemma BuildSortInfosDropsTotalUses(sortInfos: Option<seq<SortInfo>>, equalsInvariant: (string, string) -> bool)
    requires !equalsInvariant(CodeColumn, TotalUsesCountColumn) && !equalsInvariant(IdColumn, TotalUsesCountColumn)
    ensures !SortsByTotalUses(BuildSortInfos(sortInfos, equalsInvariant), equalsInvariant)
  {
    var r := BuildSortInfos(sortInfos, equalsInvariant);
    if sortInfos.Some? && |sortInfos.value| == 1 && !SortsByTotalUses(sortInfos.value, equalsInvariant) {
      assert r == [sortInfos.value[0], IdAscending];
    }
  }

  /** Normalising a normalised sort changes nothing. */
  lemma BuildSortInfosIdempotent(sortInfos: Option<seq<SortInfo>>, equalsInvariant: (string, string) -> bool)
    requires !equalsInvariant(CodeColumn, TotalUsesCountColumn) && !equalsInvariant(IdColumn, TotalUsesCountColumn)
    ensures var r := BuildSortInfos(sortInfos, equalsInvariant);
            BuildSortInfos(Some(r), equalsInvariant) == r
  {
    BuildSortInfosDropsTotalUses(sortInfos, equalsInvariant);
  }

  // ---------------------------------------------------------------------------
  // Filter
  // ---------------------------------------------------------------------------

  /** The three criteria together: a coupon is found when each criterion that
      is given agrees with it. */
  predicate Matches(criteria: CouponSearchCriteria, c: Coupon)
  {
    && (criteria.promotionId == "" || c.promotionId == criteria.promotionId)
    && (criteria.code == "" || c.code == criteria.code)
    && (criteria.codes == [] || c.code in criteria.codes)
  }

  /** The coupons satisfying `Matches`, in table order: the reference the
      query below is checked against. */
  function MatchingCoupons(criteria: CouponSearchCriteria, coupons: seq<Coupon>): (r: seq<Coupon>)
    ensures |r| <= |coupons|
    ensures forall i :: 0 <= i < |r| ==> Matches(criteria, r[i])
    ensures forall i :: 0 <= i < |coupons| && Matches(criteria, coupons[i]) ==> coupons[i] in r
  {
    if coupons == [] then []
    else if Matches(criteria, coupons[0]) then [coupons[0]] + MatchingCoupons(criteria, coupons[1..])
    else MatchingCoupons(criteria, coupons[1..])
  }

  /** LINQ `Where`: the coupons satisfying `keep`, in their original order. */
  function Where(coupons: seq<Coupon>, keep: Coupon -> bool): (r: seq<Coupon>)
    ensures |r| <= |coupons|
    ensures forall i :: 0 <= i < |r| ==> r[i] in coupons && keep(r[i])
    ensures forall i :: 0 <= i < |coupons| && keep(coupons[i]) ==> coupons[i] in r
  {
    if coupons == [] then []
    else if keep(coupons[0]) then [coupons[0]] + Where(coupons[1..], keep)
    else Where(coupons[1..], keep)
  }

  lemma WhereCons(c: Coupon, rest: seq<Coupon>, keep: Coupon -> bool)
    ensures Where([c] + rest, keep) == (if keep(c) then [c] else []) + Where(rest, keep)
  {
    assert ([c] + rest)[1..] == rest;
  }

  /** `c => c.PromotionId == promotionId`. */
  function PromotionIs(promotionId: string): (keep: Coupon -> bool)
    ensures forall c :: keep(c) <==> c.promotionId == promotionId
  {
    (c: Coupon) => c.promotionId == promotionId
  }

  /** `c => c.Code == code`. */
  function CodeIs(code: string): (keep: Coupon -> bool)
    ensures forall c :: keep(c) <==> c.code == code
  {
    (c: Coupon) => c.code == code
  }

  /** `c => codes.Contains(c.Code)`. */
  function CodeIn(codes: seq<string>): (keep: Coupon -> bool)
    ensures forall c :: keep(c) <==> c.code in codes
  {
    (c: Coupon) => c.code in codes
  }

  /** A `Where` applied only when its criterion is given. */
  function WhereIf(given: bool, coupons: seq<Coupon>, keep: Coupon -> bool): (r: seq<Coupon>)
    ensures !given ==> r == coupons
    ensures given ==> r == Where(coupons, keep)
  {
    if given then Where(coupons, keep) else coupons
  }

  lemma WhereIfCons(given: bool, c: Coupon, rest: seq<Coupon>, keep: Coupon -> bool)
    ensures WhereIf(given, [c] + rest, keep) == (if !given || keep(c) then [c] else []) + WhereIf(given, rest, keep)
  {
    if given {
      WhereCons(c, rest, keep);
    }
  }

  /** The query as it is built: one `Where` per criterion that is given, in
      the order promotion, code, code list. Every coupon it keeps comes from
      the table and meets all given criteria, and every table coupon that
      meets them is kept. */
  function FilterCoupons(criteria: CouponSearchCriteria, coupons: seq<Coupon>): (r: seq<Coupon>)
    ensures |r| <= |coupons|
    ensures forall i :: 0 <= i < |r| ==> r[i] in coupons && Matches(criteria, r[i])
    ensures forall i :: 0 <= i < |coupons| && Matches(criteria, coupons[i]) ==> coupons[i] in r
  {
    var byPromotion := WhereIf(criteria.promotionId != "", coupons, PromotionIs(criteria.promotionId));
    var byCode := WhereIf(criteria.code != "", byPromotion, CodeIs(criteria.code));
    WhereIf(criteria.codes != [], byCode, CodeIn(criteria.codes))
  }

  /** One step of the filter chain on a non-empty table. */
  lemma FilterCouponsCons(criteria: CouponSearchCriteria, coupons: seq<Coupon>)
    requires coupons != []
    ensures FilterCoupons(criteria, coupons)
            == (if Matches(criteria, coupons[0]) then [coupons[0]] else []) + FilterCoupons(criteria, coupons[1..])
  {
    var c, rest := coupons[0], coupons[1..];
    assert coupons == [c] + rest;
    var promotion, code, codes := PromotionIs(criteria.promotionId), CodeIs(criteria.code), CodeIn(criteria.codes);
    WhereIfCons(criteria.promotionId != "", c, rest, promotion);
    var byPromotion := WhereIf(criteria.promotionId != "", rest, promotion);
    if criteria.promotionId == "" || promotion(c) {
      WhereIfCons(criteria.code != "", c, byPromotion, code);
      var byCode := WhereIf(criteria.code != "", byPromotion, code);
      if criteria.code == "" || code(c) {
        WhereIfCons(criteria.codes != [], c, byCode, codes);
      } else {
        assert [] + byCode == byCode;
      }
    } else {
      assert [] + byPromotion == byPromotion;
    }
  }

  /** The chain of `Where`s selects exactly the coupons satisfying all given
      criteria, in table order. */
  lemma {:induction false} FilterIsConjunction(criteria: CouponSearchCriteria, coupons: seq<Coupon>)
    ensures FilterCoupons(criteria, coupons) == MatchingCoupons(criteria, coupons)
  {
    if coupons != [] {
      FilterCouponsCons(criteria, coupons);
      FilterIsConjunction(criteria, coupons[1..]);
    }
  }

  /** A coupon is found exactly when it satisfies all given criteria. */
  lemma FoundIffMatches(criteria: CouponSearchCriteria, coupons: seq<Coupon>, c: Coupon)
    ensures c in FilterCoupons(criteria, coupons) <==> c in coupons && Matches(criteria, c)
  {
    FilterIsConjunction(criteria, coupons);
    var r := MatchingCoupons(criteria, coupons);
    if c in r {
      var i :| 0 <= i < |r| && r[i] == c;
      MatchingCouponsFromTable(criteria, coupons, i);
    }
  }

  lemma {:induction false} MatchingCouponsFromTable(criteria: CouponSearchCriteria, coupons: seq<Coupon>, i: nat)
    requires i < |MatchingCoupons(criteria, coupons)|
    ensures MatchingCoupons(criteria, coupons)[i] in coupons
  {
    if Matches(criteria, coupons[0]) {
      if i > 0 {
        MatchingCouponsFromTable(criteria, coupons[1..], i - 1);
      }
    } else {
      MatchingCouponsFromTable(criteria, coupons[1..], i);
    }
  }

  // ---------------------------------------------------------------------------
  // Reordering by position in the page of ids
  // ---------------------------------------------------------------------------

  /** `Array.IndexOf`: the position of the first occurrence of `id`, or -1. */
  function IndexOf(ids: seq<string>, id: string): (r: int)
    ensures -1 <= r < |ids|
    ensures r == -1 <==> id !in ids
    ensures 0 <= r ==> ids[r] == id && id !in ids[..r]
  {
    if ids == [] then -1
    else if ids[0] == id then 0
    else
      var rest := IndexOf(ids[1..], id);
      assert ids == [ids[0]] + ids[1..];
      if rest == -1 then -1
      else
        assert ids[..rest + 1] == [ids[0]] + ids[1..][..rest];
        rest + 1
  }

  /** The coupons whose id is at position `k` of `ids`, in their original order. */
  function AtPosition(coupons: seq<Coupon>, ids: seq<string>, k: int): (r: seq<Coupon>)
    ensures forall i :: 0 <= i < |r| ==> IndexOf(ids, r[i].id) == k
  {
    if coupons == [] then []
    else if IndexOf(ids, coupons[0].id) == k then [coupons[0]] + AtPosition(coupons[1..], ids, k)
    else AtPosition(coupons[1..], ids, k)
  }

  /** The coupons whose position in `ids` is at least `k`, in their original order. */
  function FromPositionOn(coupons: seq<Coupon>, ids: seq<string>, k: int): (r: seq<Coupon>)
  {
    if coupons == [] then []
    else if k <= IndexOf(ids, coupons[0].id) then [coupons[0]] + FromPositionOn(coupons[1..], ids, k)
    else FromPositionOn(coupons[1..], ids, k)
  }

  lemma {:induction false} FromPositionOnSplits(coupons: seq<Coupon>, ids: seq<string>, k: int)
    ensures multiset(FromPositionOn(coupons, ids, k))
            == multiset(AtPosition(coupons, ids, k)) + multiset(FromPositionOn(coupons, ids, k + 1))
  {
    if coupons != [] {
      FromPositionOnSplits(coupons[1..], ids, k);
    }
  }

  lemma {:induction false} FromFirstPositionKeepsAll(coupons: seq<Coupon>, ids: seq<string>)
    ensures FromPositionOn(coupons, ids, -1) == coupons
  {
    if coupons != [] {
      FromFirstPositionKeepsAll(coupons[1..], ids);
    }
  }

  /** Stable `OrderBy` on the position key, for the keys from `k` upward. */
  function OrderFrom(coupons: seq<Coupon>, ids: seq<string>, k: int): (r: seq<Coupon>)
    requires -1 <= k <= |ids|
    ensures multiset(r) == multiset(FromPositionOn(coupons, ids, k))
    ensures forall i :: 0 <= i < |r| ==> k <= IndexOf(ids, r[i].id)
    ensures SortedByPosition(r, ids)
    decreases |ids| - k
  {
    if k == |ids| then
      NothingBeyondLastPosition(coupons, ids);
      []
    else
      FromPositionOnSplits(coupons, ids, k);
      var here := AtPosition(coupons, ids, k);
      var later := OrderFrom(coupons, ids, k + 1);
      BlocksInPositionOrder(here, later, ids, k);
      here + later
  }

  /** A block of coupons at position `k` followed by a sorted block of
      coupons at later positions is sorted. */
  lemma BlocksInPositionOrder(here: seq<Coupon>, later: seq<Coupon>, ids: seq<string>, k: int)
    requires forall i :: 0 <= i < |here| ==> IndexOf(ids, here[i].id) == k
    requires forall i :: 0 <= i < |later| ==> k < IndexOf(ids, later[i].id)
    requires SortedByPosition(later, ids)
    ensures forall i :: 0 <= i < |here + later| ==> k <= IndexOf(ids, (here + later)[i].id)
    ensures SortedByPosition(here + later, ids)
  {
    var r := here + later;
    forall i, j | 0 <= i < j < |r|
      ensures IndexOf(ids, r[i].id) <= IndexOf(ids, r[j].id)
    {
      if j < |here| {
      } else if i < |here| {
        assert r[j] == later[j - |here|];
      } else {
        assert r[i] == later[i - |here|] && r[j] == later[j - |here|];
      }
    }
  }

  lemma {:induction false} NothingBeyondLastPosition(coupons: seq<Coupon>, ids: seq<string>)
    ensures FromPositionOn(coupons, ids, |ids|) == []
  {
    if coupons != [] {
      NothingBeyondLastPosition(coupons[1..], ids);
    }
  }

  /** Coupons sorted by the position of their id in `ids`; a coupon whose id
      is not there has position -1 and so comes first. */
  ghost predicate SortedByPosition(coupons: seq<Coupon>, ids: seq<string>)
  {
    forall i, j :: 0 <= i < j < |coupons| ==> IndexOf(ids, coupons[i].id) <= IndexOf(ids, coupons[j].id)
  }

  /** `OrderBy(x => Array.IndexOf(ids, x.Id))`: the same coupons, sorted by
      the position of their id. */
  function OrderByPosition(coupons: seq<Coupon>, ids: seq<string>): (r: seq<Coupon>)
    ensures multiset(r) == multiset(coupons)
    ensures SortedByPosition(r, ids)
  {
    FromFirstPositionKeepsAll(coupons, ids);
    OrderFrom(coupons, ids, -1)
  }

  // ---------------------------------------------------------------------------
  // The search
  // ---------------------------------------------------------------------------

  /** The ids of the page: `Select(Id).Skip(skip).Take(take)` of the sorted query. */
  function PageIds(sorted: seq<Coupon>, skip: int, take: int): (r: seq<string>)
    ensures |r| == Min(Max(take, 0), Max(|sorted| - Max(skip, 0), 0))
    ensures forall i :: 0 <= i < |r| ==> Max(skip, 0) + i < |sorted| && r[i] == sorted[Max(skip, 0) + i].id
  {
    var window := Window(sorted, skip, take);
    seq(|window|, i requires 0 <= i < |window| => window[i].id)
  }

  /** One search.  A null criteria fails before anything else.  The total is
      the number of coupons the filter finds, whatever the page; the results
      are filled only for a positive take: the coupons loaded for the ids of
      the requested window of the sorted query, ordered by the position of
      their id in that window. */
  function SearchCoupons(
    criteria: Option<CouponSearchCriteria>,
    coupons: seq<Coupon>,
    equalsInvariant: (string, string) -> bool,
    orderBySortInfos: (seq<Coupon>, seq<SortInfo>) -> seq<Coupon>,
    getByIds: seq<string> -> seq<Coupon>)
    : (r: Result<CouponSearchResult>)
    ensures r.Err? <==> criteria.None?
    ensures r.Err? ==> r.error == ArgumentNull("criteria")
    ensures r.Ok? ==> r.value.totalCount == |MatchingCoupons(criteria.value, coupons)|
    ensures r.Ok? && criteria.value.take <= 0 ==> r.value.results == []
    ensures r.Ok? && 0 < criteria.value.take ==>
      var c := criteria.value;
      var sorted := orderBySortInfos(FilterCoupons(c, coupons), BuildSortInfos(c.sortInfos, equalsInvariant));
      var ids := PageIds(sorted, c.skip, c.take);
      && multiset(r.value.results) == multiset(getByIds(ids))
      && SortedByPosition(r.value.results, ids)
  {
    match criteria
    case None => Err(ArgumentNull("criteria"))
    case Some(c) =>
      var sortInfos := BuildSortInfos(c.sortInfos, equalsInvariant);
      var found := FilterCoupons(c, coupons);
      FilterIsConjunction(c, coupons);
      var totalCount := |found|;
      if 0 < c.take then
        var ids := PageIds(orderBySortInfos(found, sortInfos), c.skip, c.take);
        Ok(CouponSearchResult(totalCount, OrderByPosition(getByIds(ids), ids)))
      else
        Ok(CouponSearchResult(totalCount, []))
  }
}

=== FILE: export_provider_factory.dfy ===
/** Looking up an export provider by its type name among the registered
    provider factories. */
module ExportProviders {
  import opened Common

  /** A provider configuration: the empty one used for probing, or one the
      caller supplies. */
  datatype ProviderConfiguration<Settings> =
    | EmptyProviderConfiguration
    | Configured(settings: Settings)

  /** A registered factory: builds a provider from a configuration. */
  type ProviderFactory<!Settings, Provider> = ProviderConfiguration<Settings> -> Provider

  /** The factory at position `i` builds, from the empty configuration, a
      provider whose type name matches `name`. */
  ghost predicate Probes<Settings, Provider>(
    factories: seq<ProviderFactory<Settings, Provider>>,
    typeName: Provider -> string,
    equalsInvariant: (string, string) -> bool,
    name: string,
    i: int)
    requires 0 <= i < |factories|
  {
    equalsInvariant(typeName(factories[i](EmptyProviderConfiguration)), name)
  }

  /** The position of the first factory, from `k` on, whose probe matches. */
  function FirstMatch<Settings, Provider>(
    factories: seq<ProviderFactory<Settings, Provider>>,
    typeName: Provider -> string,
    equalsInvariant: (string, string) -> bool,
    name: string,
    k: nat)
    : (r: Option<nat>)
    requires k <= |factories|
    ensures r.None? <==> forall i :: k <= i < |factories| ==> !Probes(factories, typeName, equalsInvariant, name, i)
    ensures r.Some? ==> k <= r.value < |factories| && Probes(factories, typeName, equalsInvariant, name, r.value)
    ensures r.Some? ==> forall j :: k <= j < r.value ==> !Probes(factories, typeName, equalsInvariant, name, j)
    decreases |factories| - k
  {
    if k == |factories| then None
    else if equalsInvariant(typeName(factories[k](EmptyProviderConfiguration)), name) then
      assert Probes(factories, typeName, equalsInvariant, name, k);
      Some(k)
    else
      assert !Probes(factories, typeName, equalsInvariant, name, k);
      FirstMatch(factories, typeName, equalsInvariant, name, k + 1)
  }

  /** Probes the factories in registration order, each with the empty
      configuration, until one's provider type name matches `name`, and
      applies that factory to the caller's configuration; null when none
      matches. */
  function CreateProvider<Settings, Provider>(
    factories: seq<ProviderFactory<Settings, Provider>>,
    typeName: Provider -> string,
    equalsInvariant: (string, string) -> bool,
    name: string,
    config: ProviderConfiguration<Settings>)
    : (r: Option<Provider>)
    ensures r.None? <==> forall i :: 0 <= i < |factories| ==> !Probes(factories, typeName, equalsInvariant, name, i)
    ensures r.Some? ==>
              exists i :: 0 <= i < |factories| && Probes(factories, typeName, equalsInvariant, name, i)
                          && r.value == factories[i](config)
                          && forall j :: 0 <= j < i ==> !Probes(factories, typeName, equalsInvariant, name, j)
  {
    match FirstMatch(factories, typeName, equalsInvariant, name, 0)
    case None => None
    case Some(i) => Some(factories[i](config))
  }

  /** The caller's configuration only ever reaches the chosen factory: the
      choice is the same whatever configuration is passed. */
  lemma ChoiceIgnoresConfiguration<Settings, Provider>(
    factories: seq<ProviderFactory<Settings, Provider>>,
    typeName: Provider -> string,
    equalsInvariant: (string, string) -> bool,
    name: string,
    config1: ProviderConfiguration<Settings>,
    config2: ProviderConfiguration<Settings>)
    ensures var r1 := CreateProvider(factories, typeName, equalsInvariant, name, config1);
            var r2 := CreateProvider(factories, typeName, equalsInvariant, name, config2);
            && (r1.None? <==> r2.None?)
            && (r1.Some? ==> exists i :: 0 <= i < |factories| && r1.value == factories[i](config1)
                                                             && r2.value == factories[i](config2))
  {
  }

  /** Factories registered after the first match never contribute; when the
      first factories have no match, the lookup continues into the later ones
      unchanged. */
  lemma {:induction false} LaterFactoriesIgnored<Settings, Provider>(
    first: seq<ProviderFactory<Settings, Provider>>,
    later: seq<ProviderFactory<Settings, Provider>>,
    typeName: Provider -> string,
    equalsInvariant: (string, string) -> bool,
    name: string,
    config: ProviderConfiguration<Settings>)
    ensures var r := CreateProvider(first, typeName, equalsInvariant, name, config);
            r.Some? ==> CreateProvider(first + later, typeName, equalsInvariant, name, config) == r
    ensures var r := CreateProvider(first, typeName, equalsInvariant, name, config);
            r.None? ==> CreateProvider(first + later, typeName, equalsInvariant, name, config)
                        == CreateProvider(later, typeName, equalsInvariant, name, config)
  {
    FirstMatchAppend(first, later, typeName, equalsInvariant, name, 0);
  }

  lemma {:induction false} FirstMatchAppend<Settings, Provider>(
    first: seq<ProviderFactory<Settings, Provider>>,
    later: seq<ProviderFactory<Settings, Provider>>,
    typeName: Provider -> string,
    equalsInvariant: (string, string) -> bool,
    name: string,
    k: nat)
    requires k <= |first|
    ensures var m := FirstMatch(first, typeName, equalsInvariant, name, k);
            var all := FirstMatch(first + later, typeName, equalsInvariant, name, k);
            && (m.Some? ==> all == m)
            && (m.None? ==> all == (match FirstMatch(later, typeName, equalsInvariant, name, 0)
                                    case None => None
                                    case Some(j) => Some(|first| + j)))
    decreases |first| - k
  {
    var all := first + later;
    if k == |first| {
      FirstMatchShift(first, later, typeName, equalsInvariant, name, 0);
    } else {
      assert all[k] == first[k];
      FirstMatchAppend(first, later, typeName, equalsInvariant, name, k + 1);
    }
  }

  /** Searching the later factories from `j` is searching the concatenation
      from `|first| + j`. */
  lemma {:induction false} FirstMatchShift<Settings, Provider>(
    first: seq<ProviderFactory<Settings, Provider>>,
    later: seq<ProviderFactory<Settings, Provider>>,
    typeName: Provider -> string,
    equalsInvariant: (string, string) -> bool,
    name: string,
    j: nat)
    requires j <= |later|
    ensures FirstMatch(first + later, typeName, equalsInvariant, name, |first| + j)
            == (match FirstMatch(later, typeName, equalsInvariant, name, j)
                case None => None
                case Some(m) => Some(|first| + m))
    decreases |later| - j
  {
    if j < |later| {
      assert (first + later)[|first| + j] == later[j];
      FirstMatchShift(first, later, typeName, equalsInvariant, name, j + 1);
    }
  }
}

=== FILE: localization.dfy ===
/** Picking the item for a language out of a list of localized items. */
module Localization {
  import opened Common

  /** The language looked for when the caller names none. */
  const DefaultLanguage: string := "default"

  /** The language actually looked for: a null or empty language means the default one. */
  function EffectiveLanguage(language: Option<string>): (r: string)
    ensures language.None? || language.value == "" ==> r == DefaultLanguage
    ensures language.Some? && language.value != "" ==> r == language.value
    ensures r != ""
  {
    if language.None? || language.value == "" then DefaultLanguage else language.value
  }

  /** The item at position `i` has a language code, and it differs from `language`. */
  ghost predicate Passes<T>(items: seq<T>, languageCode: T -> Option<string>, language: string, i: int)
    requires 0 <= i < |items|
  {
    languageCode(items[i]).Some? && languageCode(items[i]).value != language
  }

  /** `FirstOrDefault` over the items from position `k` on, comparing each
      item's language code ordinally and case-sensitively; a null code reached
      before a match fails like a null dereference. */
  function FindFrom<T>(items: seq<T>, languageCode: T -> Option<string>, language: string, k: nat): (r: Result<Option<T>>)
    requires k <= |items|
    ensures r == Ok(None) <==> forall i :: k <= i < |items| ==> Passes(items, languageCode, language, i)
    ensures r.Ok? && r.value.Some? ==>
              exists i :: k <= i < |items| && items[i] == r.value.value
                          && languageCode(items[i]) == Some(language)
                          && forall j :: k <= j < i ==> Passes(items, languageCode, language, j)
    ensures r.Err? <==> exists i :: k <= i < |items| && languageCode(items[i]).None?
                                   && forall j :: k <= j < i ==> Passes(items, languageCode, language, j)
    ensures r.Err? ==> r.error == NullReference
    decreases |items| - k
  {
    if k == |items| then Ok(None)
    else
      assert !Passes(items, languageCode, language, k) <==> languageCode(items[k]).None? || languageCode(items[k]).value == language;
      match languageCode(items[k])
      case None => Err(NullReference)
      case Some(code) =>
        if code == language then Ok(Some(items[k]))
        else
          var r := FindFrom(items, languageCode, language, k + 1);
          assert Passes(items, languageCode, language, k);
          FindFromSkips(items, languageCode, language, k, r);
          r
  }

  /** Passing over an item whose code is another language: whatever the
      search from the next item establishes also holds from this one. */
  lemma FindFromSkips<T>(items: seq<T>, languageCode: T -> Option<string>, language: string, k: nat, r: Result<Option<T>>)
    requires k < |items| && Passes(items, languageCode, language, k)
    requires r.Ok? && r.value.Some? ==>
               exists i :: k + 1 <= i < |items| && items[i] == r.value.value
                           && languageCode(items[i]) == Some(language)
                           && forall j :: k + 1 <= j < i ==> Passes(items, languageCode, language, j)
    requires r.Err? <==> exists i :: k + 1 <= i < |items| && languageCode(items[i]).None?
                                     && forall j :: k + 1 <= j < i ==> Passes(items, languageCode, language, j)
    ensures r.Ok? && r.value.Some? ==>
              exists i :: k <= i < |items| && items[i] == r.value.value
                          && languageCode(items[i]) == Some(language)
                          && forall j :: k <= j < i ==> Passes(items, languageCode, language, j)
    ensures r.Err? <==> exists i :: k <= i < |items| && languageCode(items[i]).None?
                                   && forall j :: k <= j < i ==> Passes(items, languageCode, language, j)
  {
    if r.Ok? && r.value.Some? {
      var i :| k + 1 <= i < |items| && items[i] == r.value.value
               && languageCode(items[i]) == Some(language)
               && forall j :: k + 1 <= j < i ==> Passes(items, languageCode, language, j);
      assert forall j :: k <= j < i ==> Passes(items, languageCode, language, j);
    }
    if r.Err? {
      var i :| k + 1 <= i < |items| && languageCode(items[i]).None?
               && forall j :: k + 1 <= j < i ==> Passes(items, languageCode, language, j);
      assert forall j :: k <= j < i ==> Passes(items, languageCode, language, j);
    }
    if exists i :: k <= i < |items| && languageCode(items[i]).None?
                   && forall j :: k <= j < i ==> Passes(items, languageCode, language, j) {
      var i :| k <= i < |items| && languageCode(items[i]).None?
               && forall j :: k <= j < i ==> Passes(items, languageCode, language, j);
      assert i != k;
      assert forall j :: k + 1 <= j < i ==> Passes(items, languageCode, language, j);
    }
  }

  /** The first item whose language code is the requested language (the
      default one when none is given), or null when there is none. */
  function FindWithLanguage<T>(items: seq<T>, languageCode: T -> Option<string>, language: Option<string>): (r: Result<Option<T>>)
    ensures var lang := EffectiveLanguage(language);
            r == Ok(None) <==> forall i :: 0 <= i < |items| ==> Passes(items, languageCode, lang, i)
    ensures var lang := EffectiveLanguage(language);
            r.Ok? && r.value.Some? ==>
              exists i :: 0 <= i < |items| && items[i] == r.value.value
                          && languageCode(items[i]) == Some(lang)
                          && forall j :: 0 <= j < i ==> Passes(items, languageCode, lang, j)
    ensures var lang := EffectiveLanguage(language);
            r.Err? <==> exists i :: 0 <= i < |items| && languageCode(items[i]).None?
                                    && forall j :: 0 <= j < i ==> Passes(items, languageCode, lang, j)
    ensures r.Err? ==> r.error == NullReference
  {
    FindFrom(items, languageCode, EffectiveLanguage(language), 0)
  }

  /** A null language, an empty language and "default" find the same item. */
  lemma DefaultLanguageAliases<T>(items: seq<T>, languageCode: T -> Option<string>)
    ensures FindWithLanguage(items, languageCode, None) == FindWithLanguage(items, languageCode, Some(""))
    ensures FindWithLanguage(items, languageCode, None) == FindWithLanguage(items, languageCode, Some(DefaultLanguage))
  {
  }

  /** When the item at position `i` is in the requested language and every
      item before it has a language code in another language, that item is
      found. */
  lemma FirstMatchIsFound<T>(items: seq<T>, languageCode: T -> Option<string>, language: Option<string>, i: nat)
    requires i < |items| && languageCode(items[i]) == Some(EffectiveLanguage(language))
    requires forall j :: 0 <= j < i ==> Passes(items, languageCode, EffectiveLanguage(language), j)
    ensures FindWithLanguage(items, languageCode, language) == Ok(Some(items[i]))
  {
    FindFromReaches(items, languageCode, EffectiveLanguage(language), 0, i);
  }

  lemma {:induction false} FindFromReaches<T>(items: seq<T>, languageCode: T -> Option<string>, language: string, k: nat, i: nat)
    requires k <= i < |items| && languageCode(items[i]) == Some(language)
    requires forall j :: k <= j < i ==> Passes(items, languageCode, language, j)
    ensures FindFrom(items, languageCode, language, k) == Ok(Some(items[i]))
    decreases i - k
  {
    var code := languageCode(items[k]);
    if k < i {
      assert Passes(items, languageCode, language, k);
      assert code.Some? && code.value != language;
      FindFromReaches(items, languageCode, language, k + 1, i);
      assert FindFrom(items, languageCode, language, k) == FindFrom(items, languageCode, language, k + 1);
    } else {
      assert code == Some(language);
    }
  }

  /** Items after the first match never affect the result. */
  lemma LaterItemsIgnored<T>(items: seq<T>, more: seq<T>, languageCode: T -> Option<string>, language: Option<string>)
    requires FindWithLanguage(items, languageCode, language).Ok?
    requires FindWithLanguage(items, languageCode, language).value.Some?
    ensures FindWithLanguage(items + more, languageCode, language) == FindWithLanguage(items, languageCode, language)
  {
    var lang := EffectiveLanguage(language);
    var r := FindWithLanguage(items, languageCode, language);
    var i :| 0 <= i < |items| && items[i] == r.value.value
             && languageCode(items[i]) == Some(lang)
             && forall j :: 0 <= j < i ==> Passes(items, languageCode, lang, j);
    FindFromReaches(items, languageCode, lang, 0, i);
    forall j | 0 <= j < i
      ensures Passes(items + more, languageCode, lang, j)
    {
      assert (items + more)[j] == items[j];
      assert Passes(items, languageCode, lang, j);
    }
    assert (items + more)[i] == items[i];
    FindFromReaches(items + more, languageCode, lang, 0, i);
  }
}

=== FILE: pricing_export.dfy ===
/** The full pricing export: three independently paged sub-sources
    (pricelists, pricelist assignments, prices) presented as one paged
    sequence.  The aggregator is a state record; setting the query, counting
    and fetching a page are functions from one state to the next.  A
    sub-source is whatever the kind's factory builds from a query; it is
    modelled as two pure functions of the kind and the query.  Each concurrent
    task of the original writes only its own sub-source state and the results
    are read after a full barrier, so running the tasks one after the other in
    registration order gives the same states. */
module PricingExport {
  import opened Common

  /** Page size of a freshly built aggregator. */
  const DefaultPageSize: int := 50

  /** The sub-sources, one per category of exported data. */
  datatype SourceKind = Pricelists | PricelistAssignments | Prices

  /** Registration order of the sub-sources; it is also the order of every page. */
  const SourceOrder: seq<SourceKind> := [Pricelists, PricelistAssignments, Prices]

  /** The export query fields the aggregator copies or overwrites. */
  datatype ExportDataQuery = ExportDataQuery(
    skip: int,
    take: int,
    objectIds: Option<seq<string>>,
    sort: Option<string>)

  /** The two capabilities of the data source built for a kind from a query. */
  datatype SubSources<Item> = SubSources(
    totalCount: (SourceKind, ExportDataQuery) -> int,
    fetchPage: (SourceKind, ExportDataQuery) -> seq<Item>)

  /** Bookkeeping for one sub-source. `receivedCount` is the size of the page
      last fetched from it, not a running total. */
  datatype SourceState<Item> = SourceState(
    kind: SourceKind,
    dataQuery: ExportDataQuery,
    totalCount: int,
    receivedCount: int,
    result: seq<Item>)

  /** The take handed to the next live sub-source after `s`. */
  function NextTake<Item>(s: SourceState<Item>, pageSize: int): (r: int)
    ensures pageSize - s.totalCount - s.receivedCount < 0 ==> r == pageSize
    ensures 0 <= pageSize - s.totalCount - s.receivedCount ==> r == pageSize - s.totalCount - s.receivedCount
    ensures 0 <= pageSize && 0 <= s.totalCount && 0 <= s.receivedCount ==> 0 <= r <= pageSize
  {
    var rest := pageSize - s.totalCount - s.receivedCount;
    if rest < 0 then pageSize else rest
  }

  /** A sub-source is fetched from only while its last page was smaller than its total. */
  predicate Live<Item>(s: SourceState<Item>)
  {
    s.receivedCount < s.totalCount
  }

  datatype Aggregator<Item> = Aggregator(
    pageSize: int,
    currentPageNumber: int,
    totalCount: int,
    dataQuery: Option<ExportDataQuery>,
    states: Option<seq<SourceState<Item>>>)

  /** A fetched page and the aggregator state after it. */
  datatype Page<Item> = Page(next: Aggregator<Item>, items: seq<Item>)

  /** A freshly constructed aggregator: no query set and no sub-source states yet. */
  function Create<Item>(): (a: Aggregator<Item>)
    ensures a.pageSize == DefaultPageSize && a.currentPageNumber == 0
    ensures a.totalCount == 0
    ensures a.dataQuery.None? && a.states.None?
  {
    Aggregator(DefaultPageSize, 0, 0, None, None)
  }

  /** The per-sub-source copy of the caller's query. */
  function BuildExportDataQuery(query: ExportDataQuery): (r: ExportDataQuery)
    ensures r.skip == query.skip && r.take == query.take
    ensures r.objectIds == query.objectIds && r.sort == query.sort
  {
    ExportDataQuery(query.skip, query.take, query.objectIds, query.sort)
  }

  // ---------------------------------------------------------------------------
  // Counting
  // ---------------------------------------------------------------------------

  /** `after` is `before` with its query turned into a count-only query and
      its total taken from the sub-source under that query. */
  ghost predicate Counted<Item>(before: SourceState<Item>, after: SourceState<Item>, src: SubSources<Item>)
  {
    && after.kind == before.kind
    && after.dataQuery == before.dataQuery.(skip := 0, take := 0)
    && after.totalCount == src.totalCount(after.kind, after.dataQuery)
    && after.receivedCount == before.receivedCount
    && after.result == before.result
  }

  function CountState<Item>(s: SourceState<Item>, src: SubSources<Item>): (r: SourceState<Item>)
  {
    var query := s.dataQuery.(skip := 0, take := 0);
    s.(dataQuery := query, totalCount := src.totalCount(s.kind, query))
  }

  /** The count phase of every sub-source, each one independent of the others. */
  function CountStates<Item>(states: seq<SourceState<Item>>, src: SubSources<Item>): (r: seq<SourceState<Item>>)
    ensures |r| == |states|
    ensures forall i :: 0 <= i < |states| ==> Counted(states[i], r[i], src)
  {
    if states == [] then []
    else [CountState(states[0], src)] + CountStates(states[1..], src)
  }

  /** Sum of the per-sub-source totals. */
  function SumTotals<Item>(states: seq<SourceState<Item>>): (r: int)
  {
    if states == [] then 0 else states[0].totalCount + SumTotals(states[1..])
  }

  /** Recounts every sub-source and sets the aggregate total to the sum. */
  function CalculateCounts<Item>(a: Aggregator<Item>, states: seq<SourceState<Item>>, src: SubSources<Item>): (b: Aggregator<Item>)
    ensures b.states.Some? && |b.states.value| == |states|
    ensures forall i :: 0 <= i < |states| ==> Counted(states[i], b.states.value[i], src)
    ensures b.totalCount == SumTotals(b.states.value)
    ensures b.pageSize == a.pageSize && b.currentPageNumber == a.currentPageNumber
    ensures b.dataQuery == a.dataQuery
  {
    var counted := CountStates(states, src);
    a.(states := Some(counted), totalCount := SumTotals(counted))
  }

  /** Setting the export query: fails like a null dereference when the query
      is null; otherwise rebuilds the three sub-source states in registration
      order, rewinds the page cursor and counts eagerly. */
  function SetDataQuery<Item>(a: Aggregator<Item>, query: Option<ExportDataQuery>, src: SubSources<Item>): (r: Result<Aggregator<Item>>)
    ensures r.Err? <==> query.None?
    ensures r.Err? ==> r.error == NullReference
    ensures r.Ok? ==>
      var b := r.value;
      var countQuery := ExportDataQuery(0, 0, query.value.objectIds, query.value.sort);
      && b.pageSize == a.pageSize
      && b.currentPageNumber == 0
      && b.dataQuery == query
      && b.states.Some? && |b.states.value| == |SourceOrder|
      && (forall i :: 0 <= i < |SourceOrder| ==>
            && b.states.value[i].kind == SourceOrder[i]
            && b.states.value[i].dataQuery == countQuery
            && b.states.value[i].totalCount == src.totalCount(SourceOrder[i], countQuery)
            && b.states.value[i].receivedCount == 0
            && b.states.value[i].result == [])
      && b.totalCount == src.totalCount(Pricelists, countQuery)
                         + src.totalCount(PricelistAssignments, countQuery)
                         + src.totalCount(Prices, countQuery)
  {
    match query
    case None => Err(NullReference)
    case Some(q) =>
      var reset := a.(dataQuery := query, currentPageNumber := 0, totalCount := -1);
      var states := [
        SourceState(Pricelists, BuildExportDataQuery(q), 0, 0, []),
        SourceState(PricelistAssignments, BuildExportDataQuery(q), 0, 0, []),
        SourceState(Prices, BuildExportDataQuery(q), 0, 0, [])
      ];
      var b := CalculateCounts(reset, states, src);
      var counted := b.states.value;
      assert counted[2..][1..] == [];
      assert SumTotals(counted[2..]) == counted[2].totalCount;
      assert counted[1..][1..] == counted[2..];
      assert SumTotals(counted[1..]) == counted[1].totalCount + counted[2].totalCount;
      assert forall i :: 0 <= i < |SourceOrder| ==> states[i].kind == SourceOrder[i];
      Ok(b)
  }

  /** Recounts all sub-sources and returns the sum; fails like a null
      dereference when no query was ever set. */
  function GetTotalCount<Item>(a: Aggregator<Item>, src: SubSources<Item>): (r: Result<(Aggregator<Item>, int)>)
    ensures r.Err? <==> a.states.None?
    ensures r.Err? ==> r.error == NullReference
    ensures r.Ok? ==>
      var (b, total) := r.value;
      && b.states.Some? && |b.states.value| == |a.states.value|
      && (forall i :: 0 <= i < |a.states.value| ==> Counted(a.states.value[i], b.states.value[i], src))
      && total == b.totalCount == SumTotals(b.states.value)
      && b.pageSize == a.pageSize && b.currentPageNumber == a.currentPageNumber
      && b.dataQuery == a.dataQuery
  {
    match a.states
    case None => Err(NullReference)
    case Some(states) =>
      var b := CalculateCounts(a, states, src);
      Ok((b, b.totalCount))
  }

  /** A state whose query is count-only and whose total is the sub-source's
      count under it. */
  ghost predicate CountReady<Item>(s: SourceState<Item>, src: SubSources<Item>)
  {
    s.dataQuery.skip == 0 && s.dataQuery.take == 0 && s.totalCount == src.totalCount(s.kind, s.dataQuery)
  }

  /** Recounting an aggregator whose counts are current changes nothing and
      returns the total it already holds. */
  lemma RecountChangesNothing<Item>(a: Aggregator<Item>, src: SubSources<Item>)
    requires a.states.Some? && a.totalCount == SumTotals(a.states.value)
    requires forall i :: 0 <= i < |a.states.value| ==> CountReady(a.states.value[i], src)
    ensures GetTotalCount(a, src) == Ok((a, a.totalCount))
  {
    var states := a.states.value;
    var counted := GetTotalCount(a, src).value.0.states.value;
    forall i | 0 <= i < |states|
      ensures counted[i] == states[i]
    {
      assert Counted(states[i], counted[i], src);
    }
    assert counted == states;
  }

  /** Counting is idempotent: asking for the total twice changes nothing the
      second time and yields the same number. */
  lemma GetTotalCountIdempotent<Item>(a: Aggregator<Item>, src: SubSources<Item>)
    requires a.states.Some?
    ensures var (b, t) := GetTotalCount(a, src).value;
            GetTotalCount(b, src) == Ok((b, t))
  {
    var (b, t) := GetTotalCount(a, src).value;
    assert forall i :: 0 <= i < |b.states.value| ==> Counted(a.states.value[i], b.states.value[i], src);
    RecountChangesNothing(b, src);
  }

  /** The total right after setting a query is the sum of the three
      sub-sources' counts under the count-only copy of that query, and asking
      for it changes nothing. */
  lemma SetThenGetTotalCount<Item>(a: Aggregator<Item>, query: ExportDataQuery, src: SubSources<Item>)
    ensures var b := SetDataQuery(a, Some(query), src).value;
            var countQuery := ExportDataQuery(0, 0, query.objectIds, query.sort);
            GetTotalCount(b, src) == Ok((b, src.totalCount(Pricelists, countQuery)
                                           + src.totalCount(PricelistAssignments, countQuery)
                                           + src.totalCount(Prices, countQuery)))
  {
    var b := SetDataQuery(a, Some(query), src).value;
    RecountChangesNothing(b, src);
  }

  // ---------------------------------------------------------------------------
  // Fetching a page
  // ---------------------------------------------------------------------------

  /** The nearest live state strictly before position `i`, if any. */
  function LastLiveBefore<Item>(states: seq<SourceState<Item>>, i: nat): (r: Option<nat>)
    requires i <= |states|
    ensures r.None? ==> forall j :: 0 <= j < i ==> !Live(states[j])
    ensures r.Some? ==> r.value < i && Live(states[r.value])
    ensures r.Some? ==> forall j :: r.value < j < i ==> !Live(states[j])
    decreases i
  {
    if i == 0 then None
    else if Live(states[i - 1]) then Some(i - 1)
    else LastLiveBefore(states, i - 1)
  }

  /** The take the page walk has in hand when it reaches position `i`: the
      whole page before any live state, afterwards whatever the last live
      state's `NextTake` left. */
  function TakeAt<Item>(states: seq<SourceState<Item>>, i: nat, pageSize: int): (r: int)
    requires i <= |states|
  {
    match LastLiveBefore(states, i)
    case None => pageSize
    case Some(j) => NextTake(states[j], pageSize)
  }

  /** `after` is `before` once the page walk has passed it: a live state gets
      the window `(skip, take)` and the sub-source's page for it, any other
      state keeps its query and an empty result. */
  ghost predicate Planned<Item>(before: SourceState<Item>, after: SourceState<Item>, take: int, skip: int, src: SubSources<Item>)
  {
    && after.kind == before.kind
    && after.totalCount == before.totalCount
    && after.receivedCount == before.receivedCount
    && (if Live(before) then
          && after.dataQuery == before.dataQuery.(skip := skip, take := take)
          && after.result == src.fetchPage(before.kind, after.dataQuery)
        else
          && after.dataQuery == before.dataQuery
          && after.result == [])
  }

  /** The first loop of the page fetch, from position `k` on, carrying the
      running take budget `takeNext`. */
  function Allocate<Item>(states: seq<SourceState<Item>>, k: nat, takeNext: int, skip: int, pageSize: int, src: SubSources<Item>)
    : (r: seq<SourceState<Item>>)
    requires k <= |states|
    requires takeNext == TakeAt(states, k, pageSize)
    ensures |r| == |states| - k
    ensures forall i :: k <= i < |states| ==> Planned(states[i], r[i - k], TakeAt(states, i, pageSize), skip, src)
    decreases |states| - k
  {
    if k == |states| then []
    else
      var s := states[k];
      var head :=
        if Live(s) then
          var query := s.dataQuery.(take := takeNext, skip := skip);
          s.(dataQuery := query, result := src.fetchPage(s.kind, query))
        else
          s.(result := []);
      var next := if Live(s) then NextTake(s, pageSize) else takeNext;
      assert Planned(s, head, TakeAt(states, k, pageSize), skip, src);
      assert LastLiveBefore(states, k + 1) == if Live(s) then Some(k) else LastLiveBefore(states, k);
      assert next == TakeAt(states, k + 1, pageSize);
      var rest := Allocate(states, k + 1, next, skip, pageSize, src);
      var r := [head] + rest;
      assert forall i {:trigger states[i]} :: k + 1 <= i < |states| ==> r[i - k] == rest[i - (k + 1)];
      r
  }

  /** The second loop: every state records the size of its latest result. */
  function Settle<Item>(states: seq<SourceState<Item>>): (r: seq<SourceState<Item>>)
    ensures |r| == |states|
    ensures forall i :: 0 <= i < |states| ==> r[i] == states[i].(receivedCount := |states[i].result|)
  {
    if states == [] then [] else [states[0].(receivedCount := |states[0].result|)] + Settle(states[1..])
  }

  /** The results of the states, concatenated in state order. */
  function Flatten<Item>(states: seq<SourceState<Item>>): (r: seq<Item>)
  {
    if states == [] then [] else states[0].result + Flatten(states[1..])
  }

  /** Sum of the sizes of the states' results. */
  function SumResultSizes<Item>(states: seq<SourceState<Item>>): (r: nat)
  {
    if states == [] then 0 else |states[0].result| + SumResultSizes(states[1..])
  }

  /** What the page fetch does to one state: `Planned`, then its received
      count overwritten by the size of its new result. */
  ghost predicate Advanced<Item>(before: SourceState<Item>, after: SourceState<Item>, take: int, skip: int, src: SubSources<Item>)
  {
    Planned(before, after.(receivedCount := before.receivedCount), take, skip, src)
    && after.receivedCount == |after.result|
  }

  /** Fetches the next page: fails like a null dereference when no query was
      ever set; otherwise fetches from every live sub-source, concatenates
      the results in registration order, records each result's size and moves
      the cursor on by one page. */
  function FetchNextPage<Item>(a: Aggregator<Item>, src: SubSources<Item>): (r: Result<Page<Item>>)
    ensures r.Err? <==> a.states.None?
    ensures r.Err? ==> r.error == NullReference
    ensures r.Ok? ==>
      var b := r.value.next;
      var before := a.states.value;
      && b.pageSize == a.pageSize
      && b.currentPageNumber == a.currentPageNumber + 1
      && b.totalCount == a.totalCount
      && b.dataQuery == a.dataQuery
      && b.states.Some? && |b.states.value| == |before|
      && (forall i :: 0 <= i < |before| ==>
            Advanced(before[i], b.states.value[i], TakeAt(before, i, a.pageSize),
                     a.currentPageNumber * a.pageSize, src))
      && r.value.items == Flatten(b.states.value)
  {
    match a.states
    case None => Err(NullReference)
    case Some(states) =>
      var planned := Allocate(states, 0, a.pageSize, a.currentPageNumber * a.pageSize, a.pageSize, src);
      var settled := Settle(planned);
      Ok(Page(a.(states := Some(settled), currentPageNumber := a.currentPageNumber + 1), Flatten(settled)))
  }

  /** The page is each state's result laid end to end, so it splits at any
      position into the results before and from that position. */
  lemma {:induction false} FlattenSplit<Item>(states: seq<SourceState<Item>>, i: nat)
    requires i <= |states|
    ensures Flatten(states) == Flatten(states[..i]) + Flatten(states[i..])
    decreases i
  {
    if i == 0 {
      assert states[..0] == [];
      assert states[0..] == states;
    } else {
      var rest := states[1..];
      FlattenSplit(rest, i - 1);
      assert rest[..i - 1] == states[..i][1..];
      assert rest[i - 1..] == states[i..];
    }
  }

  lemma {:induction false} FlattenSize<Item>(states: seq<SourceState<Item>>)
    ensures |Flatten(states)| == SumResultSizes(states)
  {
    if states != [] {
      FlattenSize(states[1..]);
    }
  }

  /** Splits the concatenated results around the state at position `i`. */
  lemma FlattenAround<Item>(states: seq<SourceState<Item>>, i: nat)
    requires i < |states|
    ensures Flatten(states) == Flatten(states[..i]) + states[i].result + Flatten(states[i + 1..])
  {
    FlattenSplit(states, i);
    var from := states[i..];
    assert from[0] == states[i];
    assert from[1..] == states[i + 1..];
  }

  /** Within a page the sub-sources' items are never interleaved: the items of
      sub-source `i` form one contiguous block, preceded by those of the
      earlier sub-sources and followed by those of the later ones; the page's
      length is the sum of the result sizes. */
  lemma PageIsConcatenationInOrder<Item>(a: Aggregator<Item>, src: SubSources<Item>, i: nat)
    requires a.states.Some? && i < |a.states.value|
    ensures var p := FetchNextPage(a, src).value;
            var states := p.next.states.value;
            && p.items == Flatten(states[..i]) + states[i].result + Flatten(states[i + 1..])
            && |p.items| == SumResultSizes(states)
  {
    var p := FetchNextPage(a, src).value;
    FlattenAround(p.next.states.value, i);
    FlattenSize(p.next.states.value);
  }

  /** The running take at position `i`: the whole page when no earlier state
      is live, otherwise the `NextTake` of the nearest earlier live state. */
  lemma TakeAtChoice<Item>(states: seq<SourceState<Item>>, i: nat, pageSize: int)
    requires i <= |states|
    ensures (forall j :: 0 <= j < i ==> !Live(states[j])) ==> TakeAt(states, i, pageSize) == pageSize
    ensures forall j :: 0 <= j < i && Live(states[j]) && (forall m :: j < m < i ==> !Live(states[m]))
              ==> TakeAt(states, i, pageSize) == NextTake(states[j], pageSize)
  {
    match LastLiveBefore(states, i)
    case None =>
    case Some(k) =>
      forall j | 0 <= j < i && Live(states[j]) && (forall m :: j < m < i ==> !Live(states[m]))
        ensures j == k
      {
        assert Live(states[k]);
      }
  }

  /** Take allocation in the source's own words: the first live sub-source is
      asked for a whole page, and every later live sub-source for the
      `NextTake` of the live sub-source just before it; its skip is always
      the page cursor times the page size. */
  lemma TakeAllocation<Item>(a: Aggregator<Item>, src: SubSources<Item>, i: nat)
    requires a.states.Some? && i < |a.states.value| && Live(a.states.value[i])
    ensures var after := FetchNextPage(a, src).value.next.states.value[i];
            && after.dataQuery.skip == a.currentPageNumber * a.pageSize
            && ((forall j :: 0 <= j < i ==> !Live(a.states.value[j])) ==> after.dataQuery.take == a.pageSize)
            && (forall j :: 0 <= j < i && Live(a.states.value[j])
                  && (forall m :: j < m < i ==> !Live(a.states.value[m]))
                  ==> after.dataQuery.take == NextTake(a.states.value[j], a.pageSize))
  {
    var before := a.states.value;
    var after := FetchNextPage(a, src).value.next.states.value[i];
    var take := TakeAt(before, i, a.pageSize);
    assert Advanced(before[i], after, take, a.currentPageNumber * a.pageSize, src);
    assert after.dataQuery.take == take;
    TakeAtChoice(before, i, a.pageSize);
  }

  /** A live sub-source whose total plus last page size exceeds the page size
      leaves the whole page to the next live sub-source too, so one page can
      hold more than `pageSize` items. */
  lemma FullSourceLeavesFullTake<Item>(a: Aggregator<Item>, src: SubSources<Item>, j: nat, i: nat)
    requires a.states.Some? && j < i < |a.states.value|
    requires Live(a.states.value[j]) && Live(a.states.value[i])
    requires forall m :: j < m < i ==> !Live(a.states.value[m])
    requires a.pageSize < a.states.value[j].totalCount + a.states.value[j].receivedCount
    ensures FetchNextPage(a, src).value.next.states.value[i].dataQuery.take == a.pageSize
  {
    TakeAllocation(a, src, i);
  }

  /** A state that is not live is not fetched: its query is left alone and it
      contributes nothing to the page. */
  lemma SkippedStateContributesNothing<Item>(a: Aggregator<Item>, src: SubSources<Item>, i: nat)
    requires a.states.Some? && i < |a.states.value| && !Live(a.states.value[i])
    ensures var after := FetchNextPage(a, src).value.next.states.value[i];
            after.result == [] && after.receivedCount == 0 && after.dataQuery == a.states.value[i].dataQuery
  {
    var before := a.states.value;
    var after := FetchNextPage(a, src).value.next.states.value[i];
    assert Advanced(before[i], after, TakeAt(before, i, a.pageSize), a.currentPageNumber * a.pageSize, src);
  }

  /** Skipping a sub-source resets its last page size to zero, so a
      sub-source with a positive total that was exhausted on one page is
      fetched from again on the page after. */
  lemma ExhaustedSourceRejoins<Item>(a: Aggregator<Item>, src: SubSources<Item>, i: nat)
    requires a.states.Some? && i < |a.states.value| && !Live(a.states.value[i])
    requires 0 < a.states.value[i].totalCount
    ensures Live(FetchNextPage(a, src).value.next.states.value[i])
  {
    SkippedStateContributesNothing(a, src, i);
    var b := FetchNextPage(a, src).value.next;
    assert Advanced(a.states.value[i], b.states.value[i], TakeAt(a.states.value, i, a.pageSize),
                    a.currentPageNumber * a.pageSize, src);
  }

  // ---------------------------------------------------------------------------
  // Several pages
  // ---------------------------------------------------------------------------

  /** The aggregator after `n` further pages. */
  function AfterPages<Item>(a: Aggregator<Item>, src: SubSources<Item>, n: nat): (r: Aggregator<Item>)
    requires a.states.Some?
    ensures r.states.Some? && |r.states.value| == |a.states.value|
    ensures r.currentPageNumber == a.currentPageNumber + n
    ensures r.pageSize == a.pageSize && r.totalCount == a.totalCount
    ensures forall i :: 0 <= i < |a.states.value| ==>
              r.states.value[i].kind == a.states.value[i].kind
              && r.states.value[i].totalCount == a.states.value[i].totalCount
    decreases n
  {
    if n == 0 then a
    else
      var b := FetchNextPage(a, src).value.next;
      assert forall i :: 0 <= i < |a.states.value| ==>
        Advanced(a.states.value[i], b.states.value[i], TakeAt(a.states.value, i, a.pageSize),
                 a.currentPageNumber * a.pageSize, src);
      AfterPages(b, src, n - 1)
  }

  /** Every received count is non-negative; true after setting a query and
      kept by every page. */
  ghost predicate ReceivedNonNegative<Item>(a: Aggregator<Item>)
  {
    a.states.Some? && forall i :: 0 <= i < |a.states.value| ==> 0 <= a.states.value[i].receivedCount
  }

  lemma {:induction false} EmptySourceNeverFetched<Item>(a: Aggregator<Item>, src: SubSources<Item>, i: nat, n: nat)
    requires ReceivedNonNegative(a) && i < |a.states.value|
    requires a.states.value[i].totalCount <= 0
    ensures var s := AfterPages(a, src, n).states.value[i];
            && s.dataQuery == a.states.value[i].dataQuery
            && (0 < n ==> s.result == [] && s.receivedCount == 0)
    decreases n
  {
    if n > 0 {
      var b := FetchNextPage(a, src).value.next;
      assert ReceivedNonNegative(b) by {
        forall j | 0 <= j < |a.states.value|
          ensures 0 <= b.states.value[j].receivedCount
        {
          assert Advanced(a.states.value[j], b.states.value[j], TakeAt(a.states.value, j, a.pageSize),
                          a.currentPageNumber * a.pageSize, src);
        }
      }
      assert b.states.value[i].dataQuery == a.states.value[i].dataQuery
             && b.states.value[i].result == [] && b.states.value[i].receivedCount == 0
             && b.states.value[i].totalCount == a.states.value[i].totalCount by {
        SkippedStateContributesNothing(a, src, i);
      }
      var s := AfterPages(a, src, n).states.value[i];
      assert s == AfterPages(b, src, n - 1).states.value[i];
      if n == 1 {
        assert AfterPages(b, src, 0) == b;
      } else {
        EmptySourceNeverFetched(b, src, i, n - 1);
      }
    }
  }

  /** Sub-sources never return more items than they were asked for. */
  ghost predicate HonoursTake<Item>(src: SubSources<Item>)
  {
    forall kind, query :: |src.fetchPage(kind, query)| <= Max(query.take, 0)
  }

  /** Counts are non-negative and no received count exceeds the page size. */
  ghost predicate BoundedCounts<Item>(a: Aggregator<Item>)
  {
    && a.states.Some?
    && 0 <= a.pageSize
    && forall i :: 0 <= i < |a.states.value| ==>
         0 <= a.states.value[i].totalCount && 0 <= a.states.value[i].receivedCount <= a.pageSize
  }

  lemma TakeAtBounded<Item>(states: seq<SourceState<Item>>, i: nat, pageSize: int)
    requires i <= |states| && 0 <= pageSize
    requires forall j :: 0 <= j < |states| ==> 0 <= states[j].totalCount && 0 <= states[j].receivedCount
    ensures 0 <= TakeAt(states, i, pageSize) <= pageSize
  {
    match LastLiveBefore(states, i)
    case None =>
    case Some(j) =>
  }

  /** One state stays within the bounds when it is asked for at most a page. */
  lemma AdvancedKeepsBounds<Item>(before: SourceState<Item>, after: SourceState<Item>, take: int, skip: int,
                                  pageSize: int, src: SubSources<Item>)
    requires Advanced(before, after, take, skip, src) && HonoursTake(src)
    requires 0 <= take <= pageSize && 0 <= before.totalCount
    ensures 0 <= after.totalCount && 0 <= after.receivedCount <= pageSize
  {
    if Live(before) {
      assert |src.fetchPage(before.kind, after.dataQuery)| <= Max(after.dataQuery.take, 0);
    }
  }

  lemma FetchKeepsBoundedCounts<Item>(a: Aggregator<Item>, src: SubSources<Item>)
    requires BoundedCounts(a) && HonoursTake(src)
    ensures BoundedCounts(FetchNextPage(a, src).value.next)
  {
    var before := a.states.value;
    var b := FetchNextPage(a, src).value.next;
    forall i | 0 <= i < |before|
      ensures 0 <= b.states.value[i].totalCount && 0 <= b.states.value[i].receivedCount <= b.pageSize
    {
      var take := TakeAt(before, i, a.pageSize);
      TakeAtBounded(before, i, a.pageSize);
      AdvancedKeepsBounds(before[i], b.states.value[i], take, a.currentPageNumber * a.pageSize, a.pageSize, src);
    }
  }

  /** The bounds hold after any number of pages. */
  lemma {:induction false} AfterPagesBounded<Item>(a: Aggregator<Item>, src: SubSources<Item>, n: nat)
    requires BoundedCounts(a) && HonoursTake(src)
    ensures BoundedCounts(AfterPages(a, src, n))
    decreases n
  {
    if n > 0 {
      var b := FetchNextPage(a, src).value.next;
      assert BoundedCounts(b) by { FetchKeepsBoundedCounts(a, src); }
      assert BoundedCounts(AfterPages(b, src, n - 1)) by { AfterPagesBounded(b, src, n - 1); }
      assert AfterPages(a, src, n) == AfterPages(b, src, n - 1);
    } else {
      assert AfterPages(a, src, 0) == a;
    }
  }

  /** Because the received count is overwritten with the latest page size
      rather than accumulated, a sub-source holding more than a page never
      counts as exhausted: when sub-sources return no more than they are
      asked for, it is fetched from on every page, however many pages were
      fetched before. */
  lemma LargeSourceAlwaysLive<Item>(a: Aggregator<Item>, src: SubSources<Item>, i: nat, n: nat)
    requires BoundedCounts(a) && HonoursTake(src) && i < |a.states.value|
    requires a.pageSize < a.states.value[i].totalCount
    ensures Live(AfterPages(a, src, n).states.value[i])
  {
    AfterPagesBounded(a, src, n);
    var r := AfterPages(a, src, n);
    assert r.states.value[i].receivedCount <= r.pageSize;
  }

  /** Setting a query establishes the bounds `LargeSourceAlwaysLive` needs. */
  lemma SetDataQueryBoundsCounts<Item>(a: Aggregator<Item>, query: ExportDataQuery, src: SubSources<Item>)
    requires 0 <= a.pageSize
    requires forall kind, q :: 0 <= src.totalCount(kind, q)
    ensures BoundedCounts(SetDataQuery(a, Some(query), src).value)
  {
  }

  // ---------------------------------------------------------------------------
  // A worked page
  // ---------------------------------------------------------------------------

  /** Backing data of a sub-source that holds `n` items. */
  function Items(n: nat): (r: seq<int>)
  {
    seq(n, i => i)
  }

  /** Sub-sources holding 120 pricelists, 30 assignments and `prices` prices,
      each answering a query with its `Skip`/`Take` window. */
  function SampleSources(prices: nat): (r: SubSources<int>)
  {
    SubSources(
      (kind: SourceKind, q: ExportDataQuery) => SampleSize(kind, prices),
      (kind: SourceKind, q: ExportDataQuery) => Window(Items(SampleSize(kind, prices)), q.skip, q.take))
  }

  function SampleSize(kind: SourceKind, prices: nat): (r: nat)
  {
    match kind
    case Pricelists => 120
    case PricelistAssignments => 30
    case Prices => prices
  }

  /** The query with no window, no object ids and no sort. */
  const EmptyQuery: ExportDataQuery := ExportDataQuery(0, 0, None, None)

  /** With 120, 30 and 5 items and the default page size of 50, the first
      page asks the pricelists for 50, the assignments for 50 as well (the
      pricelists' `NextTake` is a whole page because 50 - 120 - 0 is
      negative) and the prices for 50 - 30 - 0 = 20, so it holds
      50 + 30 + 5 = 85 items: more than one page. */
  lemma FirstSamplePageHoldsEightyFiveItems()
    ensures var a := SetDataQuery(Create<int>(), Some(EmptyQuery), SampleSources(5)).value;
            var p := FetchNextPage(a, SampleSources(5)).value;
            && a.totalCount == 155
            && p.next.states.value[0].dataQuery.take == 50
            && p.next.states.value[1].dataQuery.take == 50
            && p.next.states.value[2].dataQuery.take == 20
            && |p.items| == 85
  {
    var a := SetDataQuery(Create<int>(), Some(EmptyQuery), SampleSources(5)).value;
    SampleCounts(a, 5);
    SampleFirstPage(a);
  }

  /** Setting the empty query on the sample sources counts 120, 30 and
      `prices`. */
  lemma SampleCounts(a: Aggregator<int>, prices: nat)
    requires a == SetDataQuery(Create<int>(), Some(EmptyQuery), SampleSources(prices)).value
    ensures a.pageSize == 50 && a.currentPageNumber == 0 && a.totalCount == 150 + prices
    ensures a.states.Some? && |a.states.value| == 3
    ensures a.states.value[0].totalCount == 120 && a.states.value[0].receivedCount == 0
    ensures a.states.value[1].totalCount == 30 && a.states.value[1].receivedCount == 0
    ensures a.states.value[2].totalCount == prices && a.states.value[2].receivedCount == 0
    ensures a.states.value[2].kind == Prices
  {
  }

  /** The first page over sub-sources counted 120, 30 and 5. */
  lemma SampleFirstPage(a: Aggregator<int>)
    requires a.pageSize == 50 && a.currentPageNumber == 0
    requires a.states.Some? && |a.states.value| == 3
    requires a.states.value[0].totalCount == 120 && a.states.value[0].receivedCount == 0
    requires a.states.value[1].totalCount == 30 && a.states.value[1].receivedCount == 0
    requires a.states.value[2].totalCount == 5 && a.states.value[2].receivedCount == 0
    requires forall i :: 0 <= i < 3 ==> SampleSize(a.states.value[i].kind, 5) == a.states.value[i].totalCount
    ensures var p := FetchNextPage(a, SampleSources(5)).value;
            && p.next.states.value[0].dataQuery.take == 50
            && p.next.states.value[1].dataQuery.take == 50
            && p.next.states.value[2].dataQuery.take == 20
            && |p.items| == 85
  {
    var src := SampleSources(5);
    var before := a.states.value;
    assert TakeAt(before, 0, 50) == 50 by {
      assert LastLiveBefore(before, 0) == None;
    }
    assert TakeAt(before, 1, 50) == 50 by {
      assert Live(before[0]);
      assert LastLiveBefore(before, 1) == Some(0);
    }
    assert TakeAt(before, 2, 50) == 20 by {
      assert Live(before[1]);
      assert LastLiveBefore(before, 2) == Some(1);
    }
    var p := FetchNextPage(a, src).value;
    var after := p.next.states.value;
    assert after[0].dataQuery.take == 50 && |after[0].result| == 50 by {
      assert Advanced(before[0], after[0], TakeAt(before, 0, 50), 0, src);
    }
    assert after[1].dataQuery.take == 50 && |after[1].result| == 30 by {
      assert Advanced(before[1], after[1], TakeAt(before, 1, 50), 0, src);
    }
    assert after[2].dataQuery.take == 20 && |after[2].result| == 5 by {
      assert Advanced(before[2], after[2], TakeAt(before, 2, 50), 0, src);
    }
    assert |p.items| == SumResultSizes(after) by {
      PageIsConcatenationInOrder(a, src, 0);
    }
    assert after[2..][1..] == [];
    assert SumResultSizes(after[2..]) == 5;
    assert after[1..][1..] == after[2..];
    assert SumResultSizes(after[1..]) == 35;
  }

  /** With 25 prices instead of 5 the first page still asks the prices for
      only 50 - 30 - 0 = 20, so it delivers the first 20 prices although
      175 items are counted. */
  lemma FirstPageGivesTwentyPrices()
    ensures var a := SetDataQuery(Create<int>(), Some(EmptyQuery), SampleSources(25)).value;
            var p := FetchNextPage(a, SampleSources(25)).value;
            && a.totalCount == 175
            && p.next.states.value[2].dataQuery.take == 20
            && p.next.states.value[2].result == Items(20)
  {
    var a := SetDataQuery(Create<int>(), Some(EmptyQuery), SampleSources(25)).value;
    SampleCounts(a, 25);
    PricesOnFirstPage(a);
    ItemsPrefix(25, 20);
  }

  /** The prices' share of the first page over sub-sources counted 120, 30
      and 25. */
  lemma PricesOnFirstPage(a: Aggregator<int>)
    requires a.pageSize == 50 && a.currentPageNumber == 0
    requires a.states.Some? && |a.states.value| == 3
    requires a.states.value[0].totalCount == 120 && a.states.value[0].receivedCount == 0
    requires a.states.value[1].totalCount == 30 && a.states.value[1].receivedCount == 0
    requires a.states.value[2].totalCount == 25 && a.states.value[2].receivedCount == 0
    requires a.states.value[2].kind == Prices
    ensures var after := FetchNextPage(a, SampleSources(25)).value.next.states.value;
            after[2].dataQuery.take == 20 && after[2].result == Window(Items(25), 0, 20)
  {
    var src := SampleSources(25);
    var before := a.states.value;
    assert TakeAt(before, 2, 50) == 20 by {
      assert Live(before[1]);
      assert LastLiveBefore(before, 2) == Some(1);
    }
    var after := FetchNextPage(a, src).value.next.states.value;
    assert Advanced(before[2], after[2], TakeAt(before, 2, 50), 0, src);
  }

  /** The first `k` of `n` items are the items of a source holding `k`. */
  lemma ItemsPrefix(n: nat, k: nat)
    requires k <= n
    ensures Window(Items(n), 0, k) == Items(k)
  {
    assert forall i :: 0 <= i < k ==> Window(Items(n), 0, k)[i] == Items(k)[i];
  }

  /** Every page after the first asks the prices to skip at least one whole
      page of 50, past all 25 of them, so no later page delivers a price:
      prices 21 to 25 are never fetched. */
  lemma LaterPagesYieldNoPrices(a: Aggregator<int>)
    requires a.states.Some? && |a.states.value| == 3 && a.states.value[2].kind == Prices
    requires a.pageSize == 50 && a.currentPageNumber >= 1
    ensures FetchNextPage(a, SampleSources(25)).value.next.states.value[2].result == []
  {
    var src := SampleSources(25);
    var before := a.states.value;
    var skip := a.currentPageNumber * a.pageSize;
    assert skip >= 50;
    var after := FetchNextPage(a, src).value.next.states.value;
    assert Advanced(before[2], after[2], TakeAt(before, 2, 50), skip, src);
    if Live(before[2]) {
      assert |Window(Items(25), skip, TakeAt(before, 2, 50))| == 0;
    }
  }
}
